=== FILE: README.md ===
# RAG workbench retrieval engine in Dafny

This project models the retrieval engine of a browser-based RAG
(retrieval-augmented generation) workbench. The engine lives in
`assets/rag.js`; the model also covers two pure fragments of the UI handlers
in `assets/app.js` that drive it.

- **Chunking** (`chunkText`): a document becomes overlapping windows of
  words. Each window has a sequential id and a half-open `[startWord, endWord)`
  range.
- **Tokenizer** (`tokenize`): the engine's terms. Text is lower-cased,
  everything outside `[a-z0-9]` and whitespace is blanked out, and the result
  is split on whitespace.
- **KeywordIndex** (`TfIdfIndex`): the index stores three things.
  - Document frequencies, counted once per chunk.
  - Smoothed IDF `ln((N+1)/(df+1)) + 1`.
  - One sparse TF-IDF vector and one L2 norm per chunk, with the norm
    floored at `1e-9`.

  Search scores every chunk by sparse cosine similarity, ranks the results
  with a stable descending sort and slices the top `topK`.
- **VectorIndex**: one embedding and one norm per chunk, produced by an
  embedding model that is a parameter. Search uses a dot product against the
  stored norms, with the query norm fixed at 1.
- **Fusion** (`rrfFuse`): Reciprocal Rank Fusion. Every item adds
  `1/(rrfK + rank)` to its chunk id's score. The first list is processed
  before the second. The chunk written last for an id is kept. Entries keep
  insertion order, are stable-sorted by descending score and are cut to
  `topK`.
- **Context** (`buildContext`): `[chunk:ID score:S]` blocks are appended
  greedily while the text fits in `maxChars`, and the result is trimmed.
- **Workbench**: two fragments of the UI handlers.
  - The "Retrieve" dispatch: refusals, `topK` and `rrfK` settings, and the
    keyword, vector and hybrid modes.
  - The citation check: `[chunk:N]` ids are extracted, de-duplicated and
    split into valid and invalid.

Supporting modules:
- `Text`: the JavaScript string primitives the engine uses. These are the
  `\s` class, `split(/\s+/)`, `join(" ")`, `trim`, decimal rendering and
  `parseInt`.
- `Seqs`: insertion-ordered `Set` de-duplication, counting and
  `slice(0, k)`.
- `Sorting`: the stable descending sort, as an index permutation.
- `Numerics`: the norm floor, dense dot products, and the types of the
  abstract `ln` and `sqrt`.
- `Results`: `Option` and `Result`.

Floating point is replaced by exact `real` arithmetic. Three things are not
computed but passed in as functions:
- `Math.log` and `Math.sqrt`. Their types carry the only facts used: `ln` is
  non-negative on arguments of at least 1, and `sqrt` is non-negative.
- `toFixed(4)`.

Three behaviours of the code worth noting:
- Vector search divides by `1 * norms[i]`; it does not compute the query
  norm.
- A vector build that fails partway keeps the embeddings it stored and is
  marked built. A later search then reads a missing embedding, which the
  model reports as an error.
- The chunk kept for an id that appears in both fused lists is the one from
  the second list, the last one written.

## Model

| member | source | states |
|---|---|---|
| Tokenizer.Lower | assets/rag.js:6 | ASCII upper-case letters map to their lower-case letter (code point + 32); every other character is unchanged |
| Tokenizer.Normalize | assets/rag.js:6-7 | the normalised text has the input's length and every character is in `[a-z0-9]` or whitespace |
| Tokenizer.Tokenize | assets/rag.js:4-10 | every token is non-empty and consists only of `[a-z0-9]` characters |
| Tokenizer.TokenizeContent | assets/rag.js:4-10 | the tokens, concatenated, are exactly the characters of the text that lower-case into `[a-z0-9]`, in order; nothing else survives |
| Tokenizer.TokenizeOfJoin | assets/rag.js:4-10 | round trip: tokens joined by single spaces tokenize back to the same token list |
| Tokenizer.TokenizeIdempotent | assets/rag.js:4-10 | re-tokenizing the space-joined tokens of a text gives the same tokens |
| Text.Words | assets/rag.js:13 | each piece of `split(/\s+/).filter(Boolean)` is a non-empty run without whitespace |
| Text.WordsContent | assets/rag.js:13 | the words, concatenated, are exactly the non-whitespace characters of the text |
| Text.WordsEmptyIffAllSpace | assets/rag.js:13 | a text has no words if and only if it is empty or all whitespace |
| Text.WordsOfJoin | assets/rag.js:20-21 | round trip: splitting words joined with single spaces gives back the words |
| Text.JoinSpaceLength | assets/rag.js:21 | `join(" ")` puts exactly one separator between consecutive words: the result is as long as the words together plus one per gap |
| Text.Trim | assets/rag.js:214 | the result is the text minus an all-whitespace prefix and suffix, and starts and ends with non-whitespace |
| Text.TrimEmptyIffAllSpace | assets/app.js:265-268 | a question trims to `""` exactly when it is all whitespace |
| Text.ParseInt | assets/app.js:266 | `parseInt(s, 10)` is NaN exactly when no digit follows the leading whitespace and optional sign |
| Text.NatToStringRoundTrip | assets/rag.js:210 | reading the digits of a rendered id gives back the id |
| Text.ParseIntOfNatToString | assets/app.js:419 | `parseInt` of a rendered non-negative id gives back the id |
| Seqs.Dedup | assets/app.js:420 | `Array.from(new Set(s))`: only elements of `s`, all of them, each once |
| Seqs.DedupFirstOccurrenceOrder | assets/app.js:420 | de-duplication keeps first-occurrence order: anything listed before `x` occurs in `s` before every occurrence of `x` |
| Seqs.DedupOfDistinct | assets/rag.js:199 | de-duplicating a sequence with no repeats changes nothing |
| Seqs.DedupAppendSeen | assets/rag.js:196-199 | appending only already-seen ids does not change the insertion order |
| Seqs.Take | assets/rag.js:106 | `s.slice(0, k)` is the prefix of `s` whose length is the slice end: element `i` of the result is element `i` of `s` |
| Seqs.SliceEnd | assets/rag.js:106 | `slice(0, k)` ends at `min(k, len)` for `k >= 0` and counts back from the end for negative `k` |
| Sorting.ArgSort | assets/rag.js:105 | the stable descending sort lists every position once: larger keys first, equal keys in input order |
| Sorting.SortedUnique | assets/rag.js:105 | two arrangements of the same positions, both in stable descending order, are equal |
| Sorting.ArgSortIsPermutation | assets/rag.js:105 | the sort's positions are a permutation of the input positions |
| Sorting.ArgSortOfDescending | assets/rag.js:105 | sorting keys already in descending order is the identity |
| Retrieval.RankByScore | assets/rag.js:105 | ranking yields the same multiset of hits in descending score order |
| Retrieval.RankByScoreStable | assets/rag.js:105 | ranked hit `k` is input hit `p[k]` for a permutation `p`, and equal scores keep input order |
| Retrieval.RankByScoreOfDescending | assets/rag.js:105 | ranking hits already in descending order changes nothing |
| Retrieval.RankByScoreIdempotent | assets/rag.js:105 | ranking twice is ranking once |
| Numerics.NormFloor | assets/rag.js:73 | `Math.sqrt(x) \|\| 1e-9` is positive: the root when positive, `1e-9` when zero |
| Numerics.DotSelf | assets/rag.js:147-148 | an embedding dotted with itself is its sum of squares, the `norm2` the build computes |
| Chunking.NextStart | assets/rag.js:19-28 | one pass breaks exactly when the window reaches the last word; otherwise the next start is the window end minus the overlap, or 0 when that is negative |
| Chunking.Windows | assets/rag.js:18-29 | the loop produces no window exactly when it starts at or past the last word |
| Chunking.NextStartAdvances | assets/rag.js:27-28 | with `0 < size` and `overlap < size`, a pass that does not break advances the start by exactly `size - overlap` |
| Chunking.NextStartStalls | assets/rag.js:27-28 | as written, with `0 < size <= overlap`, a window that does not reach the end is followed by a start at or before its own |
| Chunking.StallExample | assets/rag.js:27-28 | 41 words with size 40 and overlap 40 send the loop from offset 0 back to offset 0 |
| Chunking.WindowsIds | assets/rag.js:16-23 | the loop assigns ids consecutively from the starting id |
| Chunking.WindowsRanges | assets/rag.js:19-25 | each window is a non-empty range of at most `size` words, and its text is those words joined by spaces |
| Chunking.WindowsLinks | assets/rag.js:18-28 | each window but the last is full and the next starts `overlap` words before its end; with non-negative overlap the last ends at the last word |
| Chunking.ChunkText | assets/rag.js:12-32 | no chunks exactly when the text is blank; ids are `0..n-1`; ranges are non-empty, within the words and at most `size` long; the first starts at 0, the last ends at the word count, each next start is the previous end minus the overlap and is strictly later |
| Chunking.ChunkTextContent | assets/rag.js:19-21 | splitting a chunk's text gives exactly the words of its range, and the text is never empty |
| Chunking.ChunkTextCovers | assets/rag.js:18-28 | with `0 <= overlap < size` every word lies in the range of some chunk |
| Chunking.DefaultsCover | assets/app.js:15-16 | the default settings, 220 words with 40 of overlap, are valid: every word lies in some chunk and no chunk holds more than 220 words |
| Chunking.ChunkTextExample | assets/rag.js:12-32 | `"apple banana apple cherry"` in windows of 2 without overlap gives chunk 0 `"apple banana"` over `[0,2)` and chunk 1 `"apple cherry"` over `[2,4)` |
| KeywordIndex.DocsTokens | assets/rag.js:46-47 | one token list per chunk, in chunk order |
| KeywordIndex.AddOnce | assets/rag.js:48-49 | counting one chunk's distinct terms adds exactly 1 to each of them and leaves other counts alone |
| KeywordIndex.DocFreq | assets/rag.js:46-52 | every counted document frequency lies between 1 and N |
| KeywordIndex.Vocab | assets/rag.js:50 | the vocabulary is exactly the terms that occur in some chunk |
| KeywordIndex.DocFreqOf | assets/rag.js:46-52 | a term is counted if and only if it is in the vocabulary, and its count is the number of chunks that contain it |
| KeywordIndex.DocFreqCounts | assets/rag.js:46-52 | for all terms: document frequency counts chunks, not occurrences, over exactly the vocabulary |
| KeywordIndex.SmoothedRatio | assets/rag.js:58 | `(N+1)/(df+1)` is at least 1 and times `df+1` gives `N+1` |
| KeywordIndex.Idf | assets/rag.js:54-60 | IDF is defined on exactly the vocabulary and is at least 1 everywhere |
| KeywordIndex.TermWeight | assets/rag.js:69 | a term weight is non-negative for non-negative IDF, positive for a present term with positive IDF, and zero for an absent term or zero IDF; for a present term it is positive exactly when its IDF is |
| KeywordIndex.ChunkVector | assets/rag.js:62-72 | a chunk vector has an entry for exactly the chunk's terms, all non-negative when IDF is |
| KeywordIndex.ChunkNorm | assets/rag.js:66-73 | a chunk norm is positive, so the cosine can divide by it |
| KeywordIndex.Norms | assets/rag.js:73 | one norm per chunk, each positive |
| KeywordIndex.Build | assets/rag.js:45-76 | a built index keeps the chunks and is valid: vectors and norms aligned with the chunks, norms positive, weights non-negative |
| KeywordIndex.BuildStatistics | assets/rag.js:45-60 | after a build, df, idf and vocabulary share one key set, which is exactly the tokens of the chunks; `df(t)` is the number of chunks containing `t`, between 1 and N; `idf(t) >= 1` |
| KeywordIndex.ChunkVectorWeights | assets/rag.js:68-70 | with IDF at least 1 on every token, each weight is the term's frequency share times its IDF, and positive |
| KeywordIndex.BuildNorms | assets/rag.js:66-73 | after a build, chunk `i`'s stored norm is `Math.sqrt(norm2) || 1e-9` where `norm2` sums the squares of its built vector's weights, one per distinct token |
| KeywordIndex.BuildVectors | assets/rag.js:62-75 | after a build, chunk `i`'s vector has exactly its distinct tokens as keys, each weighted `count/len * idf`, and positive |
| KeywordIndex.QueryTerms | assets/rag.js:83-91 | every query-vector entry has a positive weight and is a query term; distinct terms give distinct entries |
| KeywordIndex.QueryVector | assets/rag.js:80-91 | `qvec` holds only tokens of the query, each once, each with a positive weight |
| KeywordIndex.QueryVectorTerms | assets/rag.js:79-91 | the query vector has an entry for `t` if and only if `t` is a query token with positive IDF; unknown terms are excluded |
| KeywordIndex.SparseDot | assets/rag.js:96-100 | query terms absent from the chunk vector contribute nothing: with none present the dot product is 0 |
| KeywordIndex.SparseDotPositive | assets/rag.js:96-100 | with positive query weights and non-negative chunk weights, the dot product is positive exactly when some query term has a positive weight in the chunk |
| KeywordIndex.Cosine | assets/rag.js:101 | `dot / (qnorm * norm)` times the two norms gives back the dot product; a non-negative dot gives a non-negative score, positive exactly when the dot is |
| KeywordIndex.ScoredHits | assets/rag.js:94-103 | one hit per chunk, in chunk order, tagged keyword, whose score is the cosine of rag.js:101: `Cosine(dot, qnorm, norms[i])`, the unique `s` with `s * (qnorm * norms[i]) == dot`. Here `dot` is the sparse dot product of the query vector with chunk `i`'s vector, `qnorm` is `Math.sqrt(qnorm2) || 1e-9` over the query vector's weights, and `norms[i]` is the stored norm. The score is positive exactly when the dot product is |
| KeywordIndex.ScorePositive | assets/rag.js:94-103 | in any valid index a chunk scores above zero exactly when some query term has a positive weight in its vector |
| KeywordIndex.SharedTerm | assets/rag.js:62-91 | in a built index, some query term has a positive weight in chunk `i` exactly when the query and the chunk share a token |
| KeywordIndex.ScoredHitPositive | assets/rag.js:45-103 | in a built index, a chunk scores above zero exactly when it shares a token with the query |
| KeywordIndex.Search | assets/rag.js:78-107 | `min(topK, N)` hits for `topK >= 0` (JavaScript slice semantics otherwise), all keyword-tagged scored hits, in descending score order |
| KeywordIndex.SparseDotNonNegative | assets/rag.js:96-100 | the sparse dot of positive query weights with non-negative chunk weights is non-negative |
| KeywordIndex.ScoresNonNegative | assets/rag.js:94-103 | every keyword score is non-negative |
| KeywordIndex.UnknownQueryScoresZero | assets/rag.js:79-103 | a query with no token of positive IDF, the empty query included, scores every chunk 0 |
| KeywordIndex.SearchStable | assets/rag.js:105-106 | result `k` is the scored hit of chunk `p[k]` for a permutation `p`, and equal scores keep chunk order |
| VectorIndex.Fresh | assets/rag.js:121-126 | a new index holds the chunks, is not built and has no embeddings or norms |
| VectorIndex.EmbedText | assets/rag.js:141 | the embedded text is the chunk text's prefix of at most 2000 characters, the whole text when shorter |
| VectorIndex.EmbeddingNorm | assets/rag.js:147-149 | an embedding's norm is positive and is the floored root of the embedding dotted with itself, the same dot product search uses |
| VectorIndex.Build | assets/rag.js:128-153 | a load failure changes nothing. Otherwise the index is built, each stored embedding is the model's output on chunk `i`'s truncated text, norms align with it, progress `i+1/N` is reported per chunk, and an error is returned exactly when a chunk's embedding failed, that chunk's error |
| VectorIndex.EmbedQuery | assets/rag.js:155-159 | fails with "VectorIndex not built" before a build, otherwise embeds the query |
| VectorIndex.ScoredHits | assets/rag.js:168-174 | one vector-tagged hit per chunk whose score times the chunk's norm is the dot product with the query |
| VectorIndex.Search | assets/rag.js:167-177 | fails exactly when not built, the query embedding fails or an embedding is missing, with the matching message; otherwise slice-length hits from the scored hits in descending order |
| VectorIndex.TopHits | assets/rag.js:175-176 | the ranked, sliced hits are drawn from the scored hits, in descending order |
| VectorIndex.SearchStable | assets/rag.js:175-176 | result `k` is the scored hit of chunk `p[k]` for a permutation `p`, and equal scores keep chunk order |
| Fusion.Contributions | assets/rag.js:186-193 | one contribution per list item, carrying that item's chunk |
| Fusion.Tallied | assets/rag.js:183-197 | tallying the first list and then the second leaves each id listed once, with a score and a chunk carrying that id, and nothing else stored |
| Fusion.Entries | assets/rag.js:199-200 | one hybrid-tagged entry per tallied id, in insertion order, carrying that id's stored chunk and score |
| Fusion.Accumulate | assets/rag.js:186-197 | the accumulated maps list each id once and store for each a score and a chunk with that id |
| Fusion.RankEntries | assets/rag.js:199-202 | ranked entries are slice-length, hybrid-tagged, in descending score order and with distinct ids |
| Fusion.Fuse | assets/rag.js:181-205 | for any integer `rrfK` whose denominators `rrfK + r` are non-zero at every rank used, the output has `slice` length over the distinct ids, is hybrid-tagged, draws ids from the two lists, is in descending score order and never repeats an id |
| Fusion.RanksNonZeroExactly | assets/rag.js:190-191 | no rank `r` from 1 to `n` makes `rrfK + r` zero exactly when `rrfK >= 0` or `rrfK + n < 0` |
| Fusion.NegativeRrfKDemotesOverlap | assets/rag.js:181-205 | with `rrfK = -100`, keyword `[A, B]` and vector `[B]` fuse to A scored `1/-99` before B scored `1/-98 + 1/-99`: a chunk both searches found ranks below one only the keyword search found |
| Fusion.AccumulateOrder | assets/rag.js:199 | map insertion order is the first-occurrence order of the contributed ids |
| Fusion.FusedOrder | assets/rag.js:183-199 | fused entries are ordered by first appearance across the first list and then the second |
| Fusion.AccumulateScore | assets/rag.js:192 | an id's accumulated score is the sum of its increments, and an id never stored has none |
| Fusion.ContributionSumConcat | assets/rag.js:196-197 | increments of two lists processed in turn add up |
| Fusion.ContributionSumOfList | assets/rag.js:187-192 | a list's increments for an id sum to the id's reciprocal-rank sum |
| Fusion.FusedScore | assets/rag.js:186-197 | an id's fused score is its reciprocal-rank sum in the first list plus that in the second |
| Fusion.AccumulateChunk | assets/rag.js:189 | the chunk stored for an id is that of its last contribution |
| Fusion.FusedChunk | assets/rag.js:188-189 | the chunk kept for an id is that of its last occurrence across the first list and then the second |
| Fusion.FusedEntry | assets/rag.js:199-200 | each fused entry carries the additive score and the last-written chunk of its id |
| Fusion.FuseResults | assets/rag.js:199-202 | each fused result carries the additive score of its id and the chunk written last for it |
| Fusion.FuseStable | assets/rag.js:199-202 | the fused output is the insertion-ordered entries permuted by the descending sort and cut to `topK`, with equal scores kept in insertion order |
| Fusion.FuseTies | assets/rag.js:199-201 | equal fused scores keep the order of first appearance across the first list and then the second |
| Fusion.RankSumOfDistinct | assets/rag.js:187-192 | in a list without repeated ids, the item at position `i` has reciprocal-rank sum `1/(rrfK+i+1)` |
| Fusion.RankSumAbsent | assets/rag.js:187-192 | an id absent from a list gets nothing from it |
| Fusion.ReciprocalDecreasing | assets/rag.js:191 | doubled reciprocal ranks strictly decrease as the rank grows |
| Fusion.SelfFusedDescending | assets/rag.js:191 | the reference self-fusion's scores `2/(rrfK+i+1)` strictly decrease along the list, for a negative `rrfK` as well as a non-negative one |
| Fusion.RankEntriesOfDescending | assets/rag.js:201-202 | entries already in descending order are only sliced |
| Fusion.FuseSelf | assets/rag.js:181-205 | fusing a list with no repeated ids with itself gives its items in order with score `2/(rrfK+rank)`, sliced to `topK` |
| Fusion.OppositeRanksTie | assets/rag.js:181-205 | keyword `[A, B]` and vector `[B, A]` with `rrfK = 60` fuse to A then B, both scored `1/61 + 1/62` |
| Context.Block | assets/rag.js:210 | a context block is never empty |
| Context.LongestFit | assets/rag.js:209-213 | reference: the longest prefix of the blocks, up to a bound, whose concatenation fits; no longer prefix fits |
| Context.FirstMissIsLongestFit | assets/rag.js:209-213 | stopping at the first block that would overflow selects the longest fitting prefix |
| Context.BuildContext | assets/rag.js:207-215 | the context is the trimmed concatenation of the longest fitting prefix of blocks: never a partial block, nothing after the first rejected one, length at most `maxChars`, and `""` for no hits |
| Workbench.SettingOr | assets/app.js:266 | `parseInt(field, 10) \|\| fallback`: the parsed number unless NaN or 0, then the fallback; never 0 |
| Workbench.TopKSetting | assets/app.js:266 | the `topK` field's parsed number unless NaN or 0, then 5; never 0 |
| Workbench.RrfKSetting | assets/app.js:399 | the `rrfK` field's parsed number unless NaN or 0, then 60; never 0 |
| Workbench.TopKOfNumbers | assets/app.js:266 | a positive number typed into the `topK` field is used as is; `0` and an empty field give 5 |
| Workbench.RrfKOfNumbers | assets/app.js:399 | a positive number typed into the `rrfK` field is used as is; `0` and an empty field give 60 |
| Workbench.Retrieve | assets/app.js:264-275 | refused exactly when the trimmed question is empty ("Enter a question") or there is no keyword index ("Build index first"); otherwise the dispatch on the trimmed question, the parsed `topK` and the applied `rrfK`, which may be negative |
| Workbench.Dispatch | assets/app.js:280-294 | keyword mode is the keyword search. Vector and hybrid modes fail with "Vector index not available" without a vector index. Vector mode is the vector search at `topK`, failing with its message. Hybrid runs the vector search at `max(topK, 10)`, fails with its message, or fuses the keyword search at `max(topK, 10)` with it down to `topK` using the configured `rrfK`, any integer that makes no rank's denominator zero. Results are in descending order and tagged with the mode |
| Workbench.MatchLength | assets/app.js:419 | a match of `\[chunk:(\d+)\]` at the start of the text has length `m` exactly when the text opens with `[chunk:`, digits and `]` closing at `m`; at most one such length exists |
| Workbench.MatchedId | assets/app.js:419 | the id read from a match is the id of the tag it spells |
| Workbench.Citations | assets/app.js:419 | every citation uses at least nine characters of the answer, and an answer without `[` cites nothing |
| Workbench.TagMatch | assets/app.js:419 | a `[chunk:ID]` tag at the start of the text is one match that reads back as `ID` |
| Workbench.CitationsOfTags | assets/app.js:419 | round trip: the citations extracted from a run of tags are the written ids, repeats and order included |
| Workbench.Select | assets/app.js:423-424 | filtering keeps exactly the ids whose membership in the retrieved set matches the filter, and any two kept ids occur in the input in the same order |
| Workbench.SelectSplits | assets/app.js:423-424 | the valid and invalid lists together have as many ids as the cited list |
| Workbench.CheckCitations | assets/app.js:407-424 | no report without a retrieval. Otherwise the cited ids are de-duplicated in first-occurrence order and split into valid and invalid lists, each without repeats, that together hold every cited id once; every valid id was retrieved and no invalid one was; both lists keep the cited order |

## Left out

- `assets/pdf.js` and `assets/llm.js`: a CDN-loaded PDF library with file I/O, and a network client. Neither is engine logic.
- The embedding pipeline and its loading (`ensureTransformersLoaded`, `pipeline`, the `window` cache). `embed` is a function parameter that may fail, and whether the model loads is the parameter `loadError`.
- Floating point: `Math.log`, `Math.sqrt`, IEEE rounding and `toFixed(4)` are abstract parameters. Scores are exact reals, so ties that rounding would break or create are not modelled.
- KeywordIndex.Build: models one build on a fresh index, as the application does. A second `build()` on the same instance would keep accumulating `df` and `vocab` and append to `norms`; that behaviour is not modelled.
- Fusion.Fuse: `rrfK` is any integer, negative ones included, but the model requires `rrfK + r != 0` at every rank `r` it uses. When `rrfK + r` is zero, JavaScript's `1/0` gives `Infinity`, and exact reals have no such value.
- Workbench.Dispatch, Workbench.Retrieve: both require `rrfK + r != 0` at every rank `r` of the two hybrid pools, the requirement `Fusion.Fuse` carries, but only when the fusion actually runs (hybrid mode, a ready vector index, a successful query embedding). The `Infinity` scores a zero denominator produces are not modelled.
- Fusion.Fuse: a non-integer or non-number `rrfK` is not modelled. The "Apply" button always stores a number (assets/app.js:399); only an imported settings file, copied unchecked at assets/app.js:472, can supply anything else.
- Workbench.CheckCitations: ids are unbounded naturals. `parseInt` of a very long digit run loses precision in JavaScript, and that is not modelled.
- Workbench.Dispatch: a vector search that throws is modelled as `Failed` with the thrown message. The status and log side effects of the `catch` block are left out.
- VectorIndex.Search: after a build that stopped early, the source reads an undefined embedding and throws a `TypeError`. The model returns the error "embedding missing" instead.
- VectorIndex.Build: the `await` sequencing and the `onProgress` callback are modelled as the returned list of progress reports, in call order.
- `String.prototype.length` counts UTF-16 code units; the model counts characters. The two agree on text without astral-plane characters.
- `toLowerCase` is modelled on ASCII only. Other upper-case letters, which JavaScript would lower-case before the `[a-z0-9]` filter, are kept as they are; the filter then blanks them either way, unless they lower-case into ASCII.
- The DOM wiring is left out: navigation, tabs, theme, status and log output, slider handlers, `renderRetrieval`, the prompt templates and export/import serialisation. None of it computes a retrieval result.
- Chunking.ChunkText: settings outside `0 < chunkSizeWords` and `overlapWords < chunkSizeWords` are not modelled. With such settings the loop as written never ends when `0 < chunkSizeWords <= overlapWords` and the text has more than `chunkSizeWords` words (see Findings), or when `chunkSizeWords <= 0 <= overlapWords` and the text is not blank. It still ends for a blank text, for a text of at most `chunkSizeWords` words, and for some other settings, such as `chunkSizeWords = 0` with `overlapWords = -1`, whose windows are empty.

## Findings

| source | as written | input that shows it | evidently intended | confidence | as-written member | corrected member |
|---|---|---|---|---|---|---|
| assets/rag.js:27-28 | the next window starts at `max(0, end - overlapWords)`, which is not after the current start when `0 < chunkSizeWords <= overlapWords`, so the loop never ends | 41 words, `chunkSizeWords = 40`, `overlapWords = 40`: offset 0 is followed by offset 0 again | every pass advances, which holds exactly when `0 <= overlapWords < chunkSizeWords` is enforced; then the chunks cover the text | medium (the slider ranges that may keep the UI away from it are not part of this model); not executed | Chunking.NextStartStalls | Chunking.ChunkText |

=== FILE: chunking.dfy ===
/** `chunkText`: split a text into overlapping windows of words with
    sequential ids and half-open word ranges. */
module Chunking {
  import opened Results
  import opened Text
  import opened Numerics
  import opened Retrieval

  /** Defaults of the `chunkText` options. */
  const DefaultChunkSizeWords: int := 220
  const DefaultOverlapWords: int := 40

  /** What one pass of the loop body decides, exactly as written and for any
      settings: `None` when the window reached the last word (`break`),
      otherwise the next start offset `Math.max(0, end - overlapWords)`. */
  function NextStart(n: nat, start: nat, size: int, overlap: int): (r: Option<nat>)
    ensures r.None? <==> n <= start + size
    ensures r.Some? ==> r.value as int >= start + size - overlap
    ensures r.Some? ==> r.value == 0 || r.value as int == start + size - overlap
  {
    var end := Min(n, start + size);
    if end == n then None else Some(Max(0, end - overlap) as nat)
  }

  /** With `overlap < size` every pass that does not break moves the window
      forward, and by exactly `size - overlap` words. */
  lemma NextStartAdvances(n: nat, start: nat, size: int, overlap: int)
    requires 0 < size && overlap < size && start < n
    ensures NextStart(n, start, size, overlap).Some? ==>
      NextStart(n, start, size, overlap).value == start + size - overlap > start
  {
  }

  /** As written, a window that does not reach the end is never followed by
      a later one when `overlapWords >= chunkSizeWords`: the loop revisits the
      same or an earlier offset forever. */
  lemma NextStartStalls(n: nat, start: nat, size: int, overlap: int)
    requires 0 < size <= overlap && start + size < n
    ensures NextStart(n, start, size, overlap).Some?
    ensures NextStart(n, start, size, overlap).value <= start
  {
  }

  /** Concrete instance: 41 words, `chunkSizeWords = 40`, `overlapWords = 40`
      send the loop from offset 0 back to offset 0. */
  lemma StallExample()
    ensures NextStart(41, 0, 40, 40) == Some(0)
  {
  }

  /** The `while` loop of `chunkText` from word offset `start`, with `id` the
      next id to assign. */
  function Windows(words: seq<string>, start: nat, id: nat, size: int, overlap: int): (r: seq<Chunk>)
    requires 0 < size && overlap < size
    ensures start >= |words| <==> r == []
    decreases |words| - start
  {
    if start >= |words| then []
    else
      var end := Min(|words|, start + size);
      var c := Chunk(id, JoinSpace(words[start..end]), Span(start, end));
      match NextStart(|words|, start, size, overlap)
      case None => [c]
      case Some(next) =>
        NextStartAdvances(|words|, start, size, overlap);
        [c] + Windows(words, next, id + 1, size, overlap)
  }

  predicate IdsFrom(r: seq<Chunk>, id: nat)
  {
    forall i :: 0 <= i < |r| ==> r[i].id == id + i
  }

  /** Each chunk is a non-empty range of at most `size` of `words` at or after
      `start`, and its text is those words joined by single spaces. */
  predicate WindowsWithin(r: seq<Chunk>, words: seq<string>, start: nat, size: int)
  {
    forall i :: 0 <= i < |r| ==>
      && start <= r[i].meta.startWord < r[i].meta.endWord <= |words|
      && r[i].meta.endWord - r[i].meta.startWord <= size
      && r[i].text == JoinSpace(words[r[i].meta.startWord..r[i].meta.endWord])
  }

  /** Ids are assigned consecutively from `id`. */
  lemma {:induction false} WindowsIds(words: seq<string>, start: nat, id: nat, size: int, overlap: int)
    requires 0 < size && overlap < size
    ensures IdsFrom(Windows(words, start, id, size, overlap), id)
    decreases |words| - start
  {
    if start < |words| {
      var next := NextStart(|words|, start, size, overlap);
      if next.Some? {
        NextStartAdvances(|words|, start, size, overlap);
        WindowsIds(words, next.value, id + 1, size, overlap);
        var rest := Windows(words, next.value, id + 1, size, overlap);
        var r := Windows(words, start, id, size, overlap);
        var end := Min(|words|, start + size);
        assert r == [Chunk(id, JoinSpace(words[start..end]), Span(start, end))] + rest;
        forall i | 0 <= i < |r|
          ensures r[i].id == id + i
        {
          if i > 0 {
            assert r[i] == rest[i - 1];
          }
        }
      }
    }
  }

  /** Every window is a non-empty range of at most `size` words at or after
      `start`, and its text is those words joined by single spaces. */
  lemma {:induction false} WindowsRanges(words: seq<string>, start: nat, id: nat, size: int, overlap: int)
    requires 0 < size && overlap < size
    ensures WindowsWithin(Windows(words, start, id, size, overlap), words, start, size)
    decreases |words| - start
  {
    if start < |words| {
      var next := NextStart(|words|, start, size, overlap);
      if next.Some? {
        NextStartAdvances(|words|, start, size, overlap);
        WindowsRanges(words, next.value, id + 1, size, overlap);
        var rest := Windows(words, next.value, id + 1, size, overlap);
        var r := Windows(words, start, id, size, overlap);
        assert r == [r[0]] + rest;
        assert forall i :: 1 <= i < |r| ==> r[i] == rest[i - 1];
      }
    }
  }

  /** With a non-negative overlap the last window ends at the last word. */
  lemma {:induction false} WindowsEnd(words: seq<string>, start: nat, id: nat, size: int, overlap: int)
    requires 0 < size && 0 <= overlap < size && start < |words|
    ensures var r := Windows(words, start, id, size, overlap);
      r[|r| - 1].meta.endWord == |words|
    decreases |words| - start
  {
    var next := NextStart(|words|, start, size, overlap);
    if next.Some? {
      NextStartAdvances(|words|, start, size, overlap);
      WindowsEnd(words, next.value, id + 1, size, overlap);
      var rest := Windows(words, next.value, id + 1, size, overlap);
      var r := Windows(words, start, id, size, overlap);
      assert r == [r[0]] + rest;
      assert r[|r| - 1] == rest[|rest| - 1];
    }
  }

  /** Each window but the last is full and the next one starts `overlap`
      words before its end. */
  predicate Linked(r: seq<Chunk>, size: int, overlap: int)
  {
    forall i :: 0 <= i < |r| - 1 ==>
      r[i].meta.endWord == r[i].meta.startWord + size &&
      r[i + 1].meta.startWord == r[i].meta.endWord - overlap
  }

  lemma {:induction false} WindowsSteps(words: seq<string>, start: nat, id: nat, size: int, overlap: int)
    requires 0 < size && overlap < size
    ensures Linked(Windows(words, start, id, size, overlap), size, overlap)
    decreases |words| - start
  {
    if start < |words| {
      var next := NextStart(|words|, start, size, overlap);
      if next.Some? {
        NextStartAdvances(|words|, start, size, overlap);
        WindowsSteps(words, next.value, id + 1, size, overlap);
        var rest := Windows(words, next.value, id + 1, size, overlap);
        var r := Windows(words, start, id, size, overlap);
        assert r == [r[0]] + rest;
        assert r[0].meta == Span(start, start + size);
        forall i | 0 <= i < |r| - 1
          ensures r[i].meta.endWord == r[i].meta.startWord + size
          ensures r[i + 1].meta.startWord == r[i].meta.endWord - overlap
        {
          if i > 0 {
            assert r[i] == rest[i - 1] && r[i + 1] == rest[i];
          } else {
            assert r[1] == rest[0];
            assert rest[0].meta.startWord == start + size - overlap;
          }
        }
      }
    }
  }

  /** The first window starts at `start`; each window but the last is full and
      the next one starts `overlap` words before its end; with a non-negative
      overlap the last window ends at the last word. */
  lemma WindowsLinks(words: seq<string>, start: nat, id: nat, size: int, overlap: int)
    requires 0 < size && overlap < size
    ensures var r := Windows(words, start, id, size, overlap);
      && (start < |words| ==> r[0].meta.startWord == start)
      && (start < |words| && overlap >= 0 ==> r[|r| - 1].meta.endWord == |words|)
      && (forall i :: 0 <= i < |r| - 1 ==>
            r[i].meta.endWord == r[i].meta.startWord + size &&
            r[i + 1].meta.startWord == r[i].meta.endWord - overlap)
  {
    if start < |words| && overlap >= 0 {
      WindowsEnd(words, start, id, size, overlap);
    }
    WindowsSteps(words, start, id, size, overlap);
  }

  /** `chunkText(text, { chunkSizeWords: size, overlapWords: overlap })`. The
      loop only terminates when `overlap < size`, which is required here. */
  function ChunkText(text: string, size: int, overlap: int): (r: seq<Chunk>)
    requires 0 < size && overlap < size
    ensures |r| == 0 <==> AllSpace(text)
    ensures forall i :: 0 <= i < |r| ==> r[i].id == i
    ensures forall i :: 0 <= i < |r| ==>
      r[i].meta.startWord < r[i].meta.endWord <= |Words(text)| &&
      r[i].meta.endWord - r[i].meta.startWord <= size
    ensures |r| > 0 ==> r[0].meta.startWord == 0
    ensures |r| > 0 && overlap >= 0 ==> r[|r| - 1].meta.endWord == |Words(text)|
    ensures forall i :: 0 <= i < |r| - 1 ==>
      r[i + 1].meta.startWord == r[i].meta.endWord - overlap &&
      r[i].meta.startWord < r[i + 1].meta.startWord
  {
    var words := Words(text);
    WordsEmptyIffAllSpace(text);
    WindowsIds(words, 0, 0, size, overlap);
    WindowsRanges(words, 0, 0, size, overlap);
    WindowsLinks(words, 0, 0, size, overlap);
    Windows(words, 0, 0, size, overlap)
  }

  /** Each chunk's text is its words joined by single spaces, so splitting it
      again gives back exactly the words of its range; and it is never empty. */
  lemma ChunkTextContent(text: string, size: int, overlap: int)
    requires 0 < size && overlap < size
    ensures var r := ChunkText(text, size, overlap);
      forall i :: 0 <= i < |r| ==>
        Words(r[i].text) == Words(text)[r[i].meta.startWord..r[i].meta.endWord] && |r[i].text| > 0
  {
    var words := Words(text);
    var r := ChunkText(text, size, overlap);
    WindowsRanges(words, 0, 0, size, overlap);
    assert r == Windows(words, 0, 0, size, overlap);
    forall i | 0 <= i < |r|
      ensures Words(r[i].text) == words[r[i].meta.startWord..r[i].meta.endWord] && |r[i].text| > 0
    {
      var ws := words[r[i].meta.startWord..r[i].meta.endWord];
      assert forall j :: 0 <= j < |ws| ==> IsWord(ws[j]);
      WordsOfJoin(ws);
      assert Words(r[i].text) == ws;
    }
  }

  /** Word `w` lies in the range of one of the chunks. */
  ghost predicate Covered(r: seq<Chunk>, w: nat)
  {
    exists i :: 0 <= i < |r| && r[i].meta.startWord <= w < r[i].meta.endWord
  }

  /** Coverage: with a non-negative overlap every word of the text lies in
      the range of some chunk (no gaps). */
  lemma ChunkTextCovers(text: string, size: int, overlap: int)
    requires 0 <= overlap < size
    ensures forall w: nat :: w < |Words(text)| ==> Covered(ChunkText(text, size, overlap), w)
  {
    var r := ChunkText(text, size, overlap);
    forall w: nat | w < |Words(text)|
      ensures Covered(r, w)
    {
      WordsEmptyIffAllSpace(text);
      assert |r| > 0;
      CoveredUpTo(r, overlap, |r| - 1, w);
    }
  }

  /** The application's default settings, 220 words with 40 of overlap, are
      valid ones: chunking with them covers every word, each chunk holding at
      most 220 words. */
  lemma DefaultsCover(text: string)
    ensures forall w: nat :: w < |Words(text)| ==>
      Covered(ChunkText(text, DefaultChunkSizeWords, DefaultOverlapWords), w)
    ensures forall i :: 0 <= i < |ChunkText(text, DefaultChunkSizeWords, DefaultOverlapWords)| ==>
      var m := ChunkText(text, DefaultChunkSizeWords, DefaultOverlapWords)[i].meta;
      m.endWord - m.startWord <= 220
  {
    ChunkTextCovers(text, DefaultChunkSizeWords, DefaultOverlapWords);
  }

  /** Every word before the end of chunk `last` is in one of the chunks up to
      `last`, given that chunks start at 0 and each starts no later than the
      previous one ends. */
  lemma {:induction false} CoveredUpTo(r: seq<Chunk>, overlap: int, last: nat, w: nat)
    requires last < |r| && 0 <= overlap
    requires r[0].meta.startWord == 0
    requires forall i :: 0 <= i < |r| - 1 ==> r[i + 1].meta.startWord == r[i].meta.endWord - overlap
    requires w < r[last].meta.endWord
    ensures exists i :: 0 <= i <= last && r[i].meta.startWord <= w < r[i].meta.endWord
    decreases last
  {
    if r[last].meta.startWord > w {
      assert last > 0;
      CoveredUpTo(r, overlap, last - 1, w);
    }
  }

  // ---------- a worked example ----------

  /** A run of lower-case letters is a word. */
  lemma LowerLettersWord(w: string)
    requires |w| > 0 && forall k :: 0 <= k < |w| ==> 'a' <= w[k] <= 'z'
    ensures IsWord(w)
  {
    forall k | 0 <= k < |w| ensures !IsSpace(w[k]) {
      assert 'a' <= w[k] <= 'z';
    }
  }

  lemma ExampleJoin()
    ensures JoinSpace(["apple", "banana", "apple", "cherry"]) == "apple banana apple cherry"
  {
    var ws := ["apple", "banana", "apple", "cherry"];
    assert ws[1..][1..][1..] == ["cherry"];
    assert ws[1..][1..] == ["apple", "cherry"];
    assert ws[1..] == ["banana", "apple", "cherry"];
  }

  lemma ExampleWords()
    ensures Words("apple banana apple cherry") == ["apple", "banana", "apple", "cherry"]
  {
    var ws := ["apple", "banana", "apple", "cherry"];
    LowerLettersWord("apple");
    LowerLettersWord("banana");
    LowerLettersWord("cherry");
    ExampleJoin();
    WordsOfJoin(ws);
  }

  /** Any four words, two at a time without overlap, give two windows. */
  lemma FourWordsInPairs(ws: seq<string>)
    requires |ws| == 4
    ensures Windows(ws, 0, 0, 2, 0)
      == [Chunk(0, JoinSpace(ws[0..2]), Span(0, 2)), Chunk(1, JoinSpace(ws[2..4]), Span(2, 4))]
  {
    assert NextStart(4, 0, 2, 0) == Some(2);
    assert NextStart(4, 2, 2, 0) == None;
    assert Windows(ws, 2, 1, 2, 0) == [Chunk(1, JoinSpace(ws[2..4]), Span(2, 4))];
  }

  lemma JoinPair(a: string, b: string)
    ensures JoinSpace([a, b]) == a + " " + b
  {
    assert [a, b][1..] == [b];
  }

  /** Four words split two at a time without overlap: ids 0 and 1, ranges
      `[0, 2)` and `[2, 4)`. */
  lemma ChunkTextExample()
    ensures ChunkText("apple banana apple cherry", 2, 0)
      == [Chunk(0, "apple banana", Span(0, 2)), Chunk(1, "apple cherry", Span(2, 4))]
  {
    ExampleWords();
    ExampleWindows();
    assert ChunkText("apple banana apple cherry", 2, 0) == Windows(["apple", "banana", "apple", "cherry"], 0, 0, 2, 0);
  }

  lemma ExampleWindows()
    ensures Windows(["apple", "banana", "apple", "cherry"], 0, 0, 2, 0)
      == [Chunk(0, "apple banana", Span(0, 2)), Chunk(1, "apple cherry", Span(2, 4))]
  {
    var ws := ["apple", "banana", "apple", "cherry"];
    FourWordsInPairs(ws);
    assert ws[0..2] == ["apple", "banana"];
    assert ws[2..4] == ["apple", "cherry"];
    JoinPair("apple", "banana");
    JoinPair("apple", "cherry");
    ExamplePieces();
  }

  lemma ExamplePieces()
    ensures "apple" + " " + "banana" == "apple banana"
    ensures "apple" + " " + "cherry" == "apple cherry"
  {
  }
}

=== FILE: context.dfy ===
/** `buildContext`: the prompt context assembled from ranked hits, one block
    per hit, greedily while the total stays within a character budget. */
module Context {
  import opened Seqs
  import opened Text
  import opened Retrieval

  /** `"\n\n[chunk:ID score:S]\nTEXT"`, where `fmt` renders the score with
      four decimals (`toFixed(4)`). */
  function Block(h: Hit, fmt: real -> string): (b: string)
    ensures |b| > 0
  {
    "\n\n[chunk:" + NatToString(h.chunk.id) + " score:" + fmt(h.score) + "]\n" + h.chunk.text
  }

  function Blocks(hits: seq<Hit>, fmt: real -> string): (bs: seq<string>)
    ensures |bs| == |hits|
    ensures forall i :: 0 <= i < |hits| ==> bs[i] == Block(hits[i], fmt)
  {
    seq(|hits|, i requires 0 <= i < |hits| => Block(hits[i], fmt))
  }

  /** Whether the first `n` blocks fit in `maxChars` characters together. */
  predicate Fits(blocks: seq<string>, n: nat, maxChars: int)
    requires n <= |blocks|
  {
    |Concat(blocks[..n])| <= maxChars
  }

  /** Reference definition: the length of the longest prefix of `blocks`, at
      most `n` long, that fits (0 when none does). */
  function LongestFit(blocks: seq<string>, maxChars: int, n: nat): (k: nat)
    requires n <= |blocks|
    ensures k <= n
    ensures k > 0 ==> Fits(blocks, k, maxChars)
    ensures forall m :: k < m <= n ==> !Fits(blocks, m, maxChars)
  {
    if n == 0 || Fits(blocks, n, maxChars) then n else LongestFit(blocks, maxChars, n - 1)
  }

  /** Stopping at the first prefix that does not fit finds the longest one
      that does: prefix lengths only grow. */
  lemma {:induction false} FirstMissIsLongestFit(blocks: seq<string>, maxChars: int, i: nat, n: nat)
    requires i <= n <= |blocks|
    requires i == 0 || Fits(blocks, i, maxChars)
    requires i == n || !Fits(blocks, i + 1, maxChars)
    ensures LongestFit(blocks, maxChars, n) == i
  {
    if n > i {
      ConcatPrefixLength(blocks, i + 1, n);
      FirstMissIsLongestFit(blocks, maxChars, i, n - 1);
    }
  }

  /** `buildContext(chunksWithScores, maxChars)`: blocks are appended in
      order while the running text stays within `maxChars`; the first block
      that would overflow ends the loop, and the result is trimmed. */
  method BuildContext(hits: seq<Hit>, maxChars: int, fmt: real -> string) returns (ctx: string)
    ensures ctx == Trim(Concat(Blocks(hits, fmt)[..LongestFit(Blocks(hits, fmt), maxChars, |hits|)]))
    ensures |ctx| <= (if maxChars < 0 then 0 else maxChars)
    ensures hits == [] ==> ctx == ""
  {
    var blocks := Blocks(hits, fmt);
    var acc := "";
    var i := 0;
    while i < |blocks|
      invariant i <= |blocks|
      invariant acc == Concat(blocks[..i])
      invariant i == 0 || Fits(blocks, i, maxChars)
    {
      var block := blocks[i];
      if |acc + block| > maxChars {
        break;
      }
      assert blocks[..i + 1] == blocks[..i] + [block];
      ConcatAppend(blocks[..i], block);
      acc := acc + block;
      i := i + 1;
    }
    if i < |blocks| {
      assert blocks[..i + 1] == blocks[..i] + [blocks[i]];
      ConcatAppend(blocks[..i], blocks[i]);
    }
    FirstMissIsLongestFit(blocks, maxChars, i, |blocks|);
    assert i == 0 ==> acc == "";
    ctx := Trim(acc);
  }
}

=== FILE: fusion.dfy ===
/** `rrfFuse`: Reciprocal Rank Fusion of two ranked lists. Every item adds
    `1 / (rrfK + rank)` (rank counted from 1 within its own list) to the fused
    score of its chunk id; the first list is processed before the second. */
module Fusion {
  import opened Seqs
  import opened Retrieval
  import Sorting

  const DefaultRrfK: nat := 60

  /** `rrfK + r`, the denominator of the increment at rank `r`. */
  function Denominator(rrfK: int, rank: nat): int
  {
    rrfK + rank
  }

  /** No rank from 1 to `n` divides by zero. JavaScript would turn a zero
      denominator into `Infinity`, which exact reals do not have. */
  predicate RanksNonZero(rrfK: int, n: nat)
  {
    forall r :: 1 <= r <= n ==> Denominator(rrfK, r) != 0
  }

  /** The settings that keep every denominator non-zero: a non-negative
      `rrfK`, or one so negative that every denominator stays below 0. */
  lemma RanksNonZeroExactly(rrfK: int, n: nat)
    ensures RanksNonZero(rrfK, n) <==> rrfK >= 0 || rrfK + n < 0
  {
    if -(n as int) <= rrfK < 0 {
      assert Denominator(rrfK, -rrfK) == 0;
    }
  }

  /** What one list item adds: its chunk and `1 / (rrfK + rank)`. */
  datatype Contribution = Contribution(chunk: Chunk, inc: real)

  function Contributions(list: seq<Hit>, rrfK: int): (cs: seq<Contribution>)
    requires RanksNonZero(rrfK, |list|)
    ensures |cs| == |list|
    ensures forall i :: 0 <= i < |list| ==> cs[i].chunk == list[i].chunk
  {
    seq(|list|, i requires 0 <= i < |list| => Contribution(list[i].chunk, 1.0 / Denominator(rrfK, i + 1) as real))
  }

  function ContributionIds(cs: seq<Contribution>): (ids: seq<nat>)
    ensures |ids| == |cs| && forall i :: 0 <= i < |cs| ==> ids[i] == cs[i].chunk.id
  {
    seq(|cs|, i requires 0 <= i < |cs| => cs[i].chunk.id)
  }

  /** The `rank` and `seen` maps, with the ids in the order they were first
      inserted (the iteration order of `rank.entries()`). */
  datatype Tally = Tally(order: seq<nat>, score: map<nat, real>, chunk: map<nat, Chunk>)

  /** Every listed id has a score and a chunk carrying that id, each id is
      listed once, and nothing else is stored. */
  predicate Consistent(t: Tally)
  {
    && Distinct(t.order)
    && (forall i :: 0 <= i < |t.order| ==>
          t.order[i] in t.score && t.order[i] in t.chunk && t.chunk[t.order[i]].id == t.order[i])
    && (forall id :: id in t.score ==> id in t.order)
    && (forall id :: id in t.chunk ==> id in t.order)
  }

  /** Applying every contribution in turn: the chunk is stored under its id
      (overwriting), and the increment is added to the id's score. */
  function Accumulate(cs: seq<Contribution>): (t: Tally)
    ensures Consistent(t)
  {
    if |cs| == 0 then Tally([], map[], map[])
    else
      var t := Accumulate(cs[..|cs| - 1]);
      var c := cs[|cs| - 1];
      var id := c.chunk.id;
      var prev := if id in t.score then t.score[id] else 0.0;
      Tally(if id in t.score then t.order else t.order + [id],
            t.score[id := prev + c.inc],
            t.chunk[id := c.chunk])
  }

  /** The fused entries in map insertion order, tagged `"hybrid"`. */
  function Entries(t: Tally): (hits: seq<Hit>)
    requires Consistent(t)
    ensures |hits| == |t.order|
    ensures forall i :: 0 <= i < |hits| ==>
      hits[i] == Hit(t.chunk[t.order[i]], t.score[t.order[i]], Hybrid) && hits[i].chunk.id == t.order[i]
  {
    seq(|t.order|, i requires 0 <= i < |t.order| =>
      Hit(t.chunk[t.order[i]], t.score[t.order[i]], Hybrid))
  }

  function Tallied(listA: seq<Hit>, listB: seq<Hit>, rrfK: int): (t: Tally)
    requires RanksNonZero(rrfK, |listA|) && RanksNonZero(rrfK, |listB|)
    ensures Consistent(t)
  {
    Accumulate(Contributions(listA, rrfK) + Contributions(listB, rrfK))
  }

  /** The entries of a tally ranked by descending score, ties in insertion
      order, cut to `topK`. */
  function RankEntries(t: Tally, topK: int): (r: seq<Hit>)
    requires Consistent(t)
    ensures |r| == SliceEnd(|t.order|, topK)
    ensures forall k :: 0 <= k < |r| ==> r[k].via == Hybrid && r[k].chunk.id in t.order
    ensures forall a, b :: 0 <= a < b < |r| ==> r[a].score >= r[b].score
    ensures forall a, b :: 0 <= a < b < |r| ==> r[a].chunk.id != r[b].chunk.id
  {
    var entries := Entries(t);
    var ranked := RankByScore(entries);
    RankByScoreStable(entries);
    var p := Sorting.ArgSort(Scores(entries));
    assert forall k :: 0 <= k < |ranked| ==> ranked[k].chunk.id == t.order[p[k]];
    Take(ranked, topK)
  }

  /** `rrfFuse(listA, listB, topK, rrfK)`. */
  function Fuse(listA: seq<Hit>, listB: seq<Hit>, topK: int, rrfK: int): (r: seq<Hit>)
    requires RanksNonZero(rrfK, |listA|) && RanksNonZero(rrfK, |listB|)
    ensures |r| == SliceEnd(|Dedup(Ids(listA) + Ids(listB))|, topK)
    ensures forall k :: 0 <= k < |r| ==> r[k].via == Hybrid && r[k].chunk.id in Ids(listA) + Ids(listB)
    ensures forall a, b :: 0 <= a < b < |r| ==> r[a].score >= r[b].score
    ensures forall a, b :: 0 <= a < b < |r| ==> r[a].chunk.id != r[b].chunk.id
  {
    FusedOrder(listA, listB, rrfK);
    RankEntries(Tallied(listA, listB, rrfK), topK)
  }

  // ---------- insertion order ----------

  /** The ids of both lists' contributions, in processing order. */
  lemma ContributionIdsOfLists(listA: seq<Hit>, listB: seq<Hit>, rrfK: int)
    requires RanksNonZero(rrfK, |listA|) && RanksNonZero(rrfK, |listB|)
    ensures ContributionIds(Contributions(listA, rrfK) + Contributions(listB, rrfK)) == Ids(listA) + Ids(listB)
  {
    var cs := Contributions(listA, rrfK) + Contributions(listB, rrfK);
    var ids := Ids(listA) + Ids(listB);
    assert forall i :: 0 <= i < |cs| ==> ContributionIds(cs)[i] == ids[i] by {
      forall i | 0 <= i < |cs| ensures ContributionIds(cs)[i] == ids[i] {
        if i < |listA| {
          assert cs[i].chunk == listA[i].chunk;
        } else {
          assert cs[i].chunk == listB[i - |listA|].chunk;
        }
      }
    }
  }

  lemma {:induction false} AccumulateOrder(cs: seq<Contribution>)
    ensures Accumulate(cs).order == Dedup(ContributionIds(cs))
  {
    if |cs| > 0 {
      var init := cs[..|cs| - 1];
      AccumulateOrder(init);
      var ids := ContributionIds(cs);
      assert ids[..|ids| - 1] == ContributionIds(init);
    }
  }

  /** Ids are listed in order of first appearance across the first list and
      then the second. */
  lemma FusedOrder(listA: seq<Hit>, listB: seq<Hit>, rrfK: int)
    requires RanksNonZero(rrfK, |listA|) && RanksNonZero(rrfK, |listB|)
    ensures Tallied(listA, listB, rrfK).order == Dedup(Ids(listA) + Ids(listB))
  {
    AccumulateOrder(Contributions(listA, rrfK) + Contributions(listB, rrfK));
    ContributionIdsOfLists(listA, listB, rrfK);
  }

  // ---------- fused scores ----------

  /** Reference definition: the sum of `1 / (rrfK + rank)` over the ranks at
      which `id` appears in `list`. */
  function RankSum(list: seq<Hit>, id: nat, rrfK: int): real
    requires RanksNonZero(rrfK, |list|)
  {
    if |list| == 0 then 0.0
    else
      RankSum(list[..|list| - 1], id, rrfK)
      + (if list[|list| - 1].chunk.id == id then 1.0 / Denominator(rrfK, |list|) as real else 0.0)
  }

  /** The sum of the increments contributed for `id`. */
  function ContributionSum(cs: seq<Contribution>, id: nat): real
  {
    if |cs| == 0 then 0.0
    else ContributionSum(cs[..|cs| - 1], id) + (if cs[|cs| - 1].chunk.id == id then cs[|cs| - 1].inc else 0.0)
  }

  lemma {:induction false} AccumulateScore(cs: seq<Contribution>, id: nat)
    ensures id in Accumulate(cs).score ==> Accumulate(cs).score[id] == ContributionSum(cs, id)
    ensures id !in Accumulate(cs).score ==> ContributionSum(cs, id) == 0.0
  {
    if |cs| > 0 {
      AccumulateScore(cs[..|cs| - 1], id);
    }
  }

  lemma {:induction false} ContributionSumConcat(a: seq<Contribution>, b: seq<Contribution>, id: nat)
    ensures ContributionSum(a + b, id) == ContributionSum(a, id) + ContributionSum(b, id)
  {
    if |b| > 0 {
      var ab := a + b;
      assert ab[..|ab| - 1] == a + b[..|b| - 1];
      assert ab[|ab| - 1] == b[|b| - 1];
      ContributionSumConcat(a, b[..|b| - 1], id);
    } else {
      assert a + b == a;
    }
  }

  lemma {:induction false} ContributionSumOfList(list: seq<Hit>, id: nat, rrfK: int)
    requires RanksNonZero(rrfK, |list|)
    ensures ContributionSum(Contributions(list, rrfK), id) == RankSum(list, id, rrfK)
  {
    if |list| > 0 {
      var init := list[..|list| - 1];
      ContributionSumOfList(init, id, rrfK);
      assert Contributions(list, rrfK)[..|list| - 1] == Contributions(init, rrfK);
    }
  }

  /** Additive fusion: the score of every listed id is its reciprocal-rank sum
      in the first list plus that in the second. */
  lemma FusedScore(listA: seq<Hit>, listB: seq<Hit>, rrfK: int, id: nat)
    requires RanksNonZero(rrfK, |listA|) && RanksNonZero(rrfK, |listB|)
    requires id in Tallied(listA, listB, rrfK).score
    ensures Tallied(listA, listB, rrfK).score[id] == RankSum(listA, id, rrfK) + RankSum(listB, id, rrfK)
  {
    var a, b := Contributions(listA, rrfK), Contributions(listB, rrfK);
    AccumulateScore(a + b, id);
    ContributionSumConcat(a, b, id);
    ContributionSumOfList(listA, id, rrfK);
    ContributionSumOfList(listB, id, rrfK);
  }

  // ---------- stored chunks ----------

  /** The position of the last occurrence of `id` in `ids`. */
  function LastIndex(ids: seq<nat>, id: nat): (j: nat)
    requires id in ids
    ensures j < |ids| && ids[j] == id
    ensures forall k :: j < k < |ids| ==> ids[k] != id
  {
    if ids[|ids| - 1] == id then |ids| - 1
    else
      assert id in ids[..|ids| - 1] by {
        var k :| 0 <= k < |ids| && ids[k] == id;
        assert ids[..|ids| - 1][k] == id;
      }
      LastIndex(ids[..|ids| - 1], id)
  }

  lemma {:induction false} AccumulateChunk(cs: seq<Contribution>, id: nat)
    requires id in Accumulate(cs).chunk
    ensures id in ContributionIds(cs)
    ensures Accumulate(cs).chunk[id] == cs[LastIndex(ContributionIds(cs), id)].chunk
  {
    var n := |cs| - 1;
    var ids := ContributionIds(cs);
    if cs[n].chunk.id == id {
      assert ids[n] == id;
      assert LastIndex(ids, id) == n;
    } else {
      var init := cs[..n];
      var t := Accumulate(init);
      assert Accumulate(cs).chunk == t.chunk[cs[n].chunk.id := cs[n].chunk];
      AccumulateChunk(init, id);
      assert ids[..n] == ContributionIds(init);
      assert ids[n] != id;
      assert LastIndex(ids, id) == LastIndex(ids[..n], id);
    }
  }

  /** Position by position, the contributions of both lists carry the chunks
      of the concatenated lists. */
  lemma ContributionChunk(listA: seq<Hit>, listB: seq<Hit>, rrfK: int, j: nat)
    requires RanksNonZero(rrfK, |listA|) && RanksNonZero(rrfK, |listB|)
    requires j < |listA| + |listB|
    ensures (Contributions(listA, rrfK) + Contributions(listB, rrfK))[j].chunk == (listA + listB)[j].chunk
  {
    if j >= |listA| {
      assert (Contributions(listA, rrfK) + Contributions(listB, rrfK))[j] == Contributions(listB, rrfK)[j - |listA|];
    }
  }

  /** The chunk kept for an id is the one written last: that of the last item
      with this id across the first list and then the second. */
  lemma FusedChunk(listA: seq<Hit>, listB: seq<Hit>, rrfK: int, id: nat)
    requires RanksNonZero(rrfK, |listA|) && RanksNonZero(rrfK, |listB|)
    requires id in Tallied(listA, listB, rrfK).chunk
    ensures id in Ids(listA) + Ids(listB)
    ensures Tallied(listA, listB, rrfK).chunk[id]
      == (listA + listB)[LastIndex(Ids(listA) + Ids(listB), id)].chunk
  {
    var cs := Contributions(listA, rrfK) + Contributions(listB, rrfK);
    AccumulateChunk(cs, id);
    ContributionIdsOfLists(listA, listB, rrfK);
    ContributionChunk(listA, listB, rrfK, LastIndex(ContributionIds(cs), id));
  }

  // ---------- the fused ranking ----------

  /** The entry of a tally built from two lists carries the additive score
      of its id and the chunk written last for it. */
  lemma FusedEntry(listA: seq<Hit>, listB: seq<Hit>, rrfK: int, i: nat)
    requires RanksNonZero(rrfK, |listA|) && RanksNonZero(rrfK, |listB|)
    requires i < |Tallied(listA, listB, rrfK).order|
    ensures var h := Entries(Tallied(listA, listB, rrfK))[i];
      && h.score == RankSum(listA, h.chunk.id, rrfK) + RankSum(listB, h.chunk.id, rrfK)
      && h.chunk.id in Ids(listA) + Ids(listB)
      && h.chunk == (listA + listB)[LastIndex(Ids(listA) + Ids(listB), h.chunk.id)].chunk
  {
    var id := Tallied(listA, listB, rrfK).order[i];
    FusedScore(listA, listB, rrfK, id);
    FusedChunk(listA, listB, rrfK, id);
  }

  /** Each fused result carries the additive score of its id and the chunk
      written last for it. */
  lemma FuseResults(listA: seq<Hit>, listB: seq<Hit>, topK: int, rrfK: int)
    requires RanksNonZero(rrfK, |listA|) && RanksNonZero(rrfK, |listB|)
    ensures forall k :: 0 <= k < |Fuse(listA, listB, topK, rrfK)| ==>
      var h := Fuse(listA, listB, topK, rrfK)[k];
      h.score == RankSum(listA, h.chunk.id, rrfK) + RankSum(listB, h.chunk.id, rrfK)
      && h.chunk.id in Ids(listA) + Ids(listB)
      && h.chunk == (listA + listB)[LastIndex(Ids(listA) + Ids(listB), h.chunk.id)].chunk
  {
    var t := Tallied(listA, listB, rrfK);
    var entries := Entries(t);
    var r := Fuse(listA, listB, topK, rrfK);
    RankByScoreStable(entries);
    var p := Sorting.ArgSort(Scores(entries));
    forall k | 0 <= k < |r|
      ensures r[k].score == RankSum(listA, r[k].chunk.id, rrfK) + RankSum(listB, r[k].chunk.id, rrfK)
      ensures r[k].chunk.id in Ids(listA) + Ids(listB)
      ensures r[k].chunk == (listA + listB)[LastIndex(Ids(listA) + Ids(listB), r[k].chunk.id)].chunk
    {
      assert r[k] == entries[p[k]];
      FusedEntry(listA, listB, rrfK, p[k]);
    }
  }

  /** Equal fused scores keep the order in which ids first appeared across
      the first list and then the second. */
  lemma FuseTies(listA: seq<Hit>, listB: seq<Hit>, topK: int, rrfK: int)
    requires RanksNonZero(rrfK, |listA|) && RanksNonZero(rrfK, |listB|)
    ensures forall a, b, j ::
      0 <= a < b < |Fuse(listA, listB, topK, rrfK)| &&
      Fuse(listA, listB, topK, rrfK)[a].score == Fuse(listA, listB, topK, rrfK)[b].score &&
      0 <= j < |Ids(listA) + Ids(listB)| &&
      (Ids(listA) + Ids(listB))[j] == Fuse(listA, listB, topK, rrfK)[b].chunk.id ==>
      Fuse(listA, listB, topK, rrfK)[a].chunk.id in (Ids(listA) + Ids(listB))[..j]
  {
    var e := Entries(Tallied(listA, listB, rrfK));
    FusedOrder(listA, listB, rrfK);
    FuseStable(listA, listB, topK, rrfK);
    StableTiesKeepFirstAppearance(Fuse(listA, listB, topK, rrfK), e, Sorting.ArgSort(Scores(e)), Ids(listA) + Ids(listB));
  }

  /** Entries listed in first-appearance order of `ids`, rearranged by `p`
      so that equal scores keep their relative order: among equal scores,
      the id that appeared first in `ids` comes first. */
  lemma StableTiesKeepFirstAppearance(r: seq<Hit>, e: seq<Hit>, p: seq<nat>, ids: seq<nat>)
    requires |r| <= |p| && |e| == |Dedup(ids)|
    requires forall k :: 0 <= k < |r| ==> p[k] < |e| && r[k] == e[p[k]]
    requires forall i :: 0 <= i < |e| ==> e[i].chunk.id == Dedup(ids)[i]
    requires forall a, b :: 0 <= a < b < |r| && r[a].score == r[b].score ==> p[a] < p[b]
    ensures forall a, b, j ::
      0 <= a < b < |r| && r[a].score == r[b].score && 0 <= j < |ids| && ids[j] == r[b].chunk.id ==>
      r[a].chunk.id in ids[..j]
  {
    DedupFirstOccurrenceOrder(ids);
    forall a, b, j | 0 <= a < b < |r| && r[a].score == r[b].score && 0 <= j < |ids| && ids[j] == r[b].chunk.id
      ensures r[a].chunk.id in ids[..j]
    {
      assert p[a] < p[b];
      assert r[a].chunk.id == Dedup(ids)[p[a]];
      assert r[b].chunk.id == Dedup(ids)[p[b]];
    }
  }

  /** The fused output is the fused entries, in insertion order, permuted
      by the stable descending sort and cut to `topK`: an entry comes before
      an equal-scored one exactly when it was inserted first. */
  lemma FuseStable(listA: seq<Hit>, listB: seq<Hit>, topK: int, rrfK: int)
    requires RanksNonZero(rrfK, |listA|) && RanksNonZero(rrfK, |listB|)
    ensures var e := Entries(Tallied(listA, listB, rrfK));
      var p := Sorting.ArgSort(Scores(e));
      && Sorting.IsPermutation(p, |e|)
      && (forall k :: 0 <= k < |Fuse(listA, listB, topK, rrfK)| ==> Fuse(listA, listB, topK, rrfK)[k] == e[p[k]])
      && (forall a, b :: 0 <= a < b < |e| && e[p[a]].score == e[p[b]].score ==> p[a] < p[b])
  {
    RankByScoreStable(Entries(Tallied(listA, listB, rrfK)));
  }

  // ---------- fusing a list with itself ----------

  /** Inside a list without repeated ids, the reciprocal-rank sum of the id
      at position `i` is `1 / (rrfK + i + 1)`. */
  lemma {:induction false} RankSumOfDistinct(list: seq<Hit>, rrfK: int, i: nat)
    requires RanksNonZero(rrfK, |list|)
    requires Distinct(Ids(list)) && i < |list|
    ensures RankSum(list, list[i].chunk.id, rrfK) == 1.0 / Denominator(rrfK, i + 1) as real
  {
    var n := |list| - 1;
    var init := list[..n];
    assert Ids(init) == Ids(list)[..n];
    if i < n {
      RankSumOfDistinct(init, rrfK, i);
      assert list[n].chunk.id != list[i].chunk.id by {
        assert Ids(list)[i] != Ids(list)[n];
      }
    } else {
      RankSumAbsent(init, list[i].chunk.id, rrfK);
    }
  }

  lemma {:induction false} RankSumAbsent(list: seq<Hit>, id: nat, rrfK: int)
    requires RanksNonZero(rrfK, |list|)
    requires id !in Ids(list)
    ensures RankSum(list, id, rrfK) == 0.0
  {
    if |list| > 0 {
      var init := list[..|list| - 1];
      assert Ids(init) == Ids(list)[..|list| - 1];
      assert Ids(list)[|list| - 1] == list[|list| - 1].chunk.id;
      RankSumAbsent(init, id, rrfK);
    }
  }

  /** Between two denominators of the same sign, the larger one gives the
      smaller reciprocal. */
  lemma ReciprocalDecreasing(x: int, y: int)
    requires x < y && (0 < x || y < 0)
    ensures 2.0 / y as real < 2.0 / x as real
  {
    var a, b := 2.0 / x as real, 2.0 / y as real;
    var xr, yr := x as real, y as real;
    assert a * xr == 2.0;
    assert b * yr == 2.0;
    var prod := xr * yr;
    assert prod > 0.0;
    assert (a - b) * prod == 2.0 * yr - 2.0 * xr by {
      assert (a - b) * prod == (a * xr) * yr - (b * yr) * xr;
    }
  }

  /** The entries of a list fused with itself. */
  function SelfFused(list: seq<Hit>, rrfK: int): seq<Hit>
    requires RanksNonZero(rrfK, |list|)
  {
    seq(|list|, i requires 0 <= i < |list| => Hit(list[i].chunk, 2.0 / Denominator(rrfK, i + 1) as real, Hybrid))
  }

  lemma SelfFusedOrder(list: seq<Hit>, rrfK: int)
    requires RanksNonZero(rrfK, |list|)
    requires Distinct(Ids(list))
    ensures Tallied(list, list, rrfK).order == Ids(list)
  {
    FusedOrder(list, list, rrfK);
    DedupAppendSeen(Ids(list), Ids(list));
    DedupOfDistinct(Ids(list));
  }

  lemma SelfFusedScore(list: seq<Hit>, rrfK: int, i: nat)
    requires RanksNonZero(rrfK, |list|)
    requires Distinct(Ids(list)) && i < |list|
    requires list[i].chunk.id in Tallied(list, list, rrfK).score
    ensures Tallied(list, list, rrfK).score[list[i].chunk.id] == 2.0 / Denominator(rrfK, i + 1) as real
  {
    FusedScore(list, list, rrfK, list[i].chunk.id);
    RankSumOfDistinct(list, rrfK, i);
    Doubled(Denominator(rrfK, i + 1));
  }

  lemma Doubled(d: int)
    requires d != 0
    ensures 1.0 / d as real + 1.0 / d as real == 2.0 / d as real
  {
  }

  lemma SelfFusedChunk(list: seq<Hit>, rrfK: int, i: nat)
    requires RanksNonZero(rrfK, |list|)
    requires Distinct(Ids(list)) && i < |list|
    requires list[i].chunk.id in Tallied(list, list, rrfK).chunk
    ensures Tallied(list, list, rrfK).chunk[list[i].chunk.id] == list[i].chunk
  {
    var id := list[i].chunk.id;
    var ids := Ids(list) + Ids(list);
    FusedChunk(list, list, rrfK, id);
    var j := LastIndex(ids, id);
    assert ids[|list| + i] == id;
    assert (list + list)[j] == list[i];
  }

  lemma SelfFusedEntry(list: seq<Hit>, rrfK: int, i: nat)
    requires RanksNonZero(rrfK, |list|)
    requires Distinct(Ids(list)) && i < |list|
    requires Tallied(list, list, rrfK).order == Ids(list)
    ensures Entries(Tallied(list, list, rrfK))[i] == SelfFused(list, rrfK)[i]
  {
    var t := Tallied(list, list, rrfK);
    assert t.order[i] == list[i].chunk.id;
    SelfFusedScore(list, rrfK, i);
    SelfFusedChunk(list, rrfK, i);
  }

  lemma SelfFusedEntries(list: seq<Hit>, rrfK: int)
    requires RanksNonZero(rrfK, |list|)
    requires Distinct(Ids(list))
    ensures Entries(Tallied(list, list, rrfK)) == SelfFused(list, rrfK)
  {
    SelfFusedOrder(list, rrfK);
    forall i | 0 <= i < |list|
      ensures Entries(Tallied(list, list, rrfK))[i] == SelfFused(list, rrfK)[i]
    {
      SelfFusedEntry(list, rrfK, i);
    }
  }

  lemma SelfFusedDescending(list: seq<Hit>, rrfK: int)
    requires RanksNonZero(rrfK, |list|)
    ensures forall a, b :: 0 <= a < b < |SelfFused(list, rrfK)| ==>
      SelfFused(list, rrfK)[a].score > SelfFused(list, rrfK)[b].score
  {
    var want := SelfFused(list, rrfK);
    RanksNonZeroExactly(rrfK, |list|);
    forall a, b | 0 <= a < b < |want| ensures want[a].score > want[b].score {
      ReciprocalDecreasing(Denominator(rrfK, a + 1), Denominator(rrfK, b + 1));
    }
  }

  /** Fusing a list without repeated ids with itself doubles every
      reciprocal rank and keeps the list's order. */
  lemma FuseSelf(list: seq<Hit>, topK: int, rrfK: int)
    requires RanksNonZero(rrfK, |list|)
    requires Distinct(Ids(list))
    ensures Fuse(list, list, topK, rrfK) == Take(SelfFused(list, rrfK), topK)
  {
    SelfFusedEntries(list, rrfK);
    SelfFusedDescending(list, rrfK);
    RankByScoreOfDescending(SelfFused(list, rrfK));
  }

  /** Two chunks ranked in opposite orders by the two lists tie at
      `1/61 + 1/62` with the default `rrfK`; the tie keeps the one the first
      list ranked first. */
  lemma OppositeRanksTie(a: Chunk, b: Chunk, s1: real, s2: real, s3: real, s4: real)
    requires a.id != b.id
    ensures Fuse([Hit(a, s1, Keyword), Hit(b, s2, Keyword)], [Hit(b, s3, Vector), Hit(a, s4, Vector)], 5, DefaultRrfK)
      == [Hit(a, 1.0 / 61.0 + 1.0 / 62.0, Hybrid), Hit(b, 1.0 / 61.0 + 1.0 / 62.0, Hybrid)]
  {
    var listA := [Hit(a, s1, Keyword), Hit(b, s2, Keyword)];
    var listB := [Hit(b, s3, Vector), Hit(a, s4, Vector)];
    var t := Tallied(listA, listB, DefaultRrfK);
    OppositeEntries(a, b, s1, s2, s3, s4);
    RankEntriesOfDescending(t, 5);
    assert Fuse(listA, listB, 5, DefaultRrfK) == RankEntries(t, 5);
  }

  /** Ranking entries that are already in descending score order keeps them
      as they are. */
  lemma RankEntriesOfDescending(t: Tally, topK: int)
    requires Consistent(t)
    requires forall i, j :: 0 <= i < j < |Entries(t)| ==> Entries(t)[i].score >= Entries(t)[j].score
    ensures RankEntries(t, topK) == Take(Entries(t), topK)
  {
    RankByScoreOfDescending(Entries(t));
  }

  lemma OppositeEntries(a: Chunk, b: Chunk, s1: real, s2: real, s3: real, s4: real)
    requires a.id != b.id
    ensures Entries(Tallied([Hit(a, s1, Keyword), Hit(b, s2, Keyword)], [Hit(b, s3, Vector), Hit(a, s4, Vector)], DefaultRrfK))
      == [Hit(a, 1.0 / 61.0 + 1.0 / 62.0, Hybrid), Hit(b, 1.0 / 61.0 + 1.0 / 62.0, Hybrid)]
  {
    var listA := [Hit(a, s1, Keyword), Hit(b, s2, Keyword)];
    var listB := [Hit(b, s3, Vector), Hit(a, s4, Vector)];
    OppositeOrder(listA, listB);
    OppositeEntry(a, b, s1, s2, s3, s4, 0);
    OppositeEntry(a, b, s1, s2, s3, s4, 1);
  }

  lemma OppositeOrder(listA: seq<Hit>, listB: seq<Hit>)
    requires |listA| == |listB| == 2
    requires listA[0].chunk.id != listA[1].chunk.id
    requires listB[0].chunk.id == listA[1].chunk.id && listB[1].chunk.id == listA[0].chunk.id
    ensures Tallied(listA, listB, DefaultRrfK).order == [listA[0].chunk.id, listA[1].chunk.id]
  {
    var x, y := listA[0].chunk.id, listA[1].chunk.id;
    assert Ids(listA) == [x, y];
    assert Ids(listB) == [y, x];
    FusedOrder(listA, listB, DefaultRrfK);
    DedupAppendSeen([x, y], [y, x]);
    DedupOfDistinct([x, y]);
  }

  /** The reciprocal-rank sum over a two-item list. */
  lemma RankSumPair(h0: Hit, h1: Hit, id: nat, rrfK: int)
    requires RanksNonZero(rrfK, 2)
    ensures RankSum([h0, h1], id, rrfK)
      == (if h0.chunk.id == id then 1.0 / Denominator(rrfK, 1) as real else 0.0)
       + (if h1.chunk.id == id then 1.0 / Denominator(rrfK, 2) as real else 0.0)
  {
    assert [h0, h1][..1] == [h0];
    assert [h0][..0] == [];
    assert RankSum([h0], id, rrfK) == (if h0.chunk.id == id then 1.0 / Denominator(rrfK, 1) as real else 0.0);
  }

  lemma OppositeScore(listA: seq<Hit>, listB: seq<Hit>, id: nat)
    requires |listA| == |listB| == 2
    requires listA[0].chunk.id != listA[1].chunk.id
    requires listB[0].chunk.id == listA[1].chunk.id && listB[1].chunk.id == listA[0].chunk.id
    requires id == listA[0].chunk.id || id == listA[1].chunk.id
    requires id in Tallied(listA, listB, DefaultRrfK).score
    ensures Tallied(listA, listB, DefaultRrfK).score[id] == 1.0 / 61.0 + 1.0 / 62.0
  {
    FusedScore(listA, listB, DefaultRrfK, id);
    assert listA == [listA[0], listA[1]] && listB == [listB[0], listB[1]];
    RankSumPair(listA[0], listA[1], id, DefaultRrfK);
    RankSumPair(listB[0], listB[1], id, DefaultRrfK);
  }

  lemma OppositeChunk(listA: seq<Hit>, listB: seq<Hit>, id: nat)
    requires |listA| == |listB| == 2
    requires listA[0].chunk.id != listA[1].chunk.id
    requires listB[0].chunk.id == listA[1].chunk.id && listB[1].chunk.id == listA[0].chunk.id
    requires id == listA[0].chunk.id || id == listA[1].chunk.id
    requires id in Tallied(listA, listB, DefaultRrfK).chunk
    ensures Tallied(listA, listB, DefaultRrfK).chunk[id]
      == if id == listA[0].chunk.id then listB[1].chunk else listB[0].chunk
  {
    FusedChunk(listA, listB, DefaultRrfK, id);
    var ids := Ids(listA) + Ids(listB);
    assert ids == [listA[0].chunk.id, listA[1].chunk.id, listB[0].chunk.id, listB[1].chunk.id];
    var j := LastIndex(ids, id);
    assert j == (if id == listA[0].chunk.id then 3 else 2);
  }

  lemma OppositeEntry(a: Chunk, b: Chunk, s1: real, s2: real, s3: real, s4: real, i: nat)
    requires a.id != b.id && i < 2
    requires Tallied([Hit(a, s1, Keyword), Hit(b, s2, Keyword)], [Hit(b, s3, Vector), Hit(a, s4, Vector)], DefaultRrfK).order
      == [a.id, b.id]
    ensures Entries(Tallied([Hit(a, s1, Keyword), Hit(b, s2, Keyword)], [Hit(b, s3, Vector), Hit(a, s4, Vector)], DefaultRrfK))[i]
      == Hit(if i == 0 then a else b, 1.0 / 61.0 + 1.0 / 62.0, Hybrid)
  {
    var listA := [Hit(a, s1, Keyword), Hit(b, s2, Keyword)];
    var listB := [Hit(b, s3, Vector), Hit(a, s4, Vector)];
    var t := Tallied(listA, listB, DefaultRrfK);
    var id := t.order[i];
    OppositeScore(listA, listB, id);
    OppositeChunk(listA, listB, id);
  }

  /** With a negative `rrfK` every increment is negative, so a chunk both
      lists found ranks below one only the first list found: with
      `rrfK = -100`, keyword `[A, B]` and vector `[B]` fuse to A, scored
      `1/-99`, before B, scored `1/-98 + 1/-99`. */
  lemma NegativeRrfKDemotesOverlap(a: Chunk, b: Chunk, s1: real, s2: real, s3: real)
    requires a.id != b.id
    ensures Fuse([Hit(a, s1, Keyword), Hit(b, s2, Keyword)], [Hit(b, s3, Vector)], 5, -100)
      == [Hit(a, -1.0 / 99.0, Hybrid), Hit(b, -1.0 / 98.0 - 1.0 / 99.0, Hybrid)]
  {
    var listA := [Hit(a, s1, Keyword), Hit(b, s2, Keyword)];
    var listB := [Hit(b, s3, Vector)];
    var t := Tallied(listA, listB, -100);
    NegativeEntries(a, b, s1, s2, s3);
    RankEntriesOfDescending(t, 5);
    assert Fuse(listA, listB, 5, -100) == RankEntries(t, 5);
  }

  lemma NegativeEntries(a: Chunk, b: Chunk, s1: real, s2: real, s3: real)
    requires a.id != b.id
    ensures Entries(Tallied([Hit(a, s1, Keyword), Hit(b, s2, Keyword)], [Hit(b, s3, Vector)], -100))
      == [Hit(a, -1.0 / 99.0, Hybrid), Hit(b, -1.0 / 98.0 - 1.0 / 99.0, Hybrid)]
  {
    var listA := [Hit(a, s1, Keyword), Hit(b, s2, Keyword)];
    var listB := [Hit(b, s3, Vector)];
    NegativeOrder(listA, listB);
    NegativeEntry(listA, listB, 0);
    NegativeEntry(listA, listB, 1);
  }

  lemma NegativeOrder(listA: seq<Hit>, listB: seq<Hit>)
    requires |listA| == 2 && |listB| == 1
    requires listA[0].chunk.id != listA[1].chunk.id && listB[0].chunk.id == listA[1].chunk.id
    ensures Tallied(listA, listB, -100).order == [listA[0].chunk.id, listA[1].chunk.id]
  {
    var x, y := listA[0].chunk.id, listA[1].chunk.id;
    assert Ids(listA) == [x, y];
    assert Ids(listB) == [y];
    FusedOrder(listA, listB, -100);
    DedupAppendSeen([x, y], [y]);
    DedupOfDistinct([x, y]);
  }

  lemma NegativeScore(listA: seq<Hit>, listB: seq<Hit>, id: nat)
    requires |listA| == 2 && |listB| == 1
    requires listA[0].chunk.id != listA[1].chunk.id && listB[0].chunk.id == listA[1].chunk.id
    requires id == listA[0].chunk.id || id == listA[1].chunk.id
    requires id in Tallied(listA, listB, -100).score
    ensures Tallied(listA, listB, -100).score[id]
      == if id == listA[0].chunk.id then -1.0 / 99.0 else -1.0 / 98.0 - 1.0 / 99.0
  {
    FusedScore(listA, listB, -100, id);
    assert listA == [listA[0], listA[1]];
    RankSumPair(listA[0], listA[1], id, -100);
    assert listB[..0] == [];
    var inB := RankSum(listB, id, -100);
    if id == listA[0].chunk.id {
      assert RankSum(listA, id, -100) == 1.0 / -99.0;
      assert inB == 0.0;
    } else {
      assert RankSum(listA, id, -100) == 1.0 / -98.0;
      assert inB == 1.0 / -99.0;
    }
  }

  lemma NegativeChunk(listA: seq<Hit>, listB: seq<Hit>, id: nat)
    requires |listA| == 2 && |listB| == 1
    requires listA[0].chunk.id != listA[1].chunk.id && listB[0].chunk == listA[1].chunk
    requires id == listA[0].chunk.id || id == listA[1].chunk.id
    requires id in Tallied(listA, listB, -100).chunk
    ensures Tallied(listA, listB, -100).chunk[id] == if id == listA[0].chunk.id then listA[0].chunk else listA[1].chunk
  {
    FusedChunk(listA, listB, -100, id);
    var ids := Ids(listA) + Ids(listB);
    assert ids == [listA[0].chunk.id, listA[1].chunk.id, listB[0].chunk.id];
    assert LastIndex(ids, id) == (if id == listA[0].chunk.id then 0 else 2);
  }

  lemma NegativeEntry(listA: seq<Hit>, listB: seq<Hit>, i: nat)
    requires |listA| == 2 && |listB| == 1 && i < 2
    requires listA[0].chunk.id != listA[1].chunk.id && listB[0].chunk == listA[1].chunk
    requires Tallied(listA, listB, -100).order == [listA[0].chunk.id, listA[1].chunk.id]
    ensures Entries(Tallied(listA, listB, -100))[i]
      == Hit(listA[i].chunk, if i == 0 then -1.0 / 99.0 else -1.0 / 98.0 - 1.0 / 99.0, Hybrid)
  {
    var id := Tallied(listA, listB, -100).order[i];
    NegativeScore(listA, listB, id);
    NegativeChunk(listA, listB, id);
  }
}

=== FILE: keyword_index.dfy ===
/** `TfIdfIndex`: document frequencies, smoothed inverse document
    frequencies, one sparse TF-IDF vector and norm per chunk, and sparse cosine
    scoring of a query against every chunk. */
module KeywordIndex {
  import opened Seqs
  import opened Numerics
  import opened Retrieval
  import opened Tokenizer
  import Sorting

  /** A built index. `vectors[i]` and `norms[i]` belong to `chunks[i]`. */
  datatype Index = Index(
    chunks: seq<Chunk>,
    df: map<string, nat>,
    idf: map<string, real>,
    vectors: seq<map<string, real>>,
    norms: seq<real>,
    vocab: set<string>)

  /** `m.get(t) || 0` on a map of counts. */
  function CountOf(m: map<string, nat>, t: string): nat
  {
    if t in m then m[t] else 0
  }

  /** `m.get(t) || 0` on a map of weights. */
  function WeightOf(m: map<string, real>, t: string): real
  {
    if t in m then m[t] else 0.0
  }

  /** The tokens of every chunk, in chunk order (`docsTokens`). */
  function DocsTokens(chunks: seq<Chunk>): (docs: seq<seq<string>>)
    ensures |docs| == |chunks|
    ensures forall i :: 0 <= i < |chunks| ==> docs[i] == Tokenize(chunks[i].text)
  {
    seq(|chunks|, i requires 0 <= i < |chunks| => Tokenize(chunks[i].text))
  }

  // ---------- document frequency ----------

  /** `for (const t of seen) df.set(t, (df.get(t) || 0) + 1)` over the distinct
      terms of one chunk. */
  function AddOnce(df: map<string, nat>, terms: seq<string>): (r: map<string, nat>)
    requires Distinct(terms)
    ensures forall t :: t in r <==> t in df || t in terms
    ensures forall t :: t in r ==> r[t] == CountOf(df, t) + (if t in terms then 1 else 0)
  {
    if |terms| == 0 then df
    else
      var init := terms[..|terms| - 1];
      var t := terms[|terms| - 1];
      assert terms == init + [t];
      var m := AddOnce(df, init);
      m[t := CountOf(m, t) + 1]
  }

  /** The document-frequency map after counting every chunk's distinct terms. */
  function DocFreq(docs: seq<seq<string>>): (r: map<string, nat>)
    ensures forall t :: t in r ==> 1 <= r[t] <= |docs|
  {
    if |docs| == 0 then map[]
    else
      var prev := DocFreq(docs[..|docs| - 1]);
      var d := docs[|docs| - 1];
      AddOnce(prev, Dedup(d))
  }

  /** Whether some chunk's terms include `t`. */
  predicate InSomeDoc(docs: seq<seq<string>>, t: string)
  {
    exists i :: 0 <= i < |docs| && t in docs[i]
  }

  /** Every term of every chunk (the `vocab` set). */
  function Vocab(docs: seq<seq<string>>): (r: set<string>)
    ensures forall t :: t in r <==> InSomeDoc(docs, t)
  {
    if |docs| == 0 then {}
    else
      var prev := docs[..|docs| - 1];
      var last := docs[|docs| - 1];
      var r := Vocab(prev) + set k | 0 <= k < |last| :: last[k];
      assert forall t :: InSomeDoc(prev, t) ==> InSomeDoc(docs, t) by {
        forall t | InSomeDoc(prev, t) ensures InSomeDoc(docs, t) {
          var i :| 0 <= i < |prev| && t in prev[i];
          assert docs[i] == prev[i];
        }
      }
      r
  }

  /** Reference definition: the positions of the chunks whose terms include `t`. */
  function ContainingDocs(docs: seq<seq<string>>, t: string): set<nat>
  {
    set i: nat | i < |docs| && t in docs[i]
  }

  lemma ContainingDocsStep(docs: seq<seq<string>>, t: string)
    requires |docs| > 0
    ensures |ContainingDocs(docs, t)|
      == |ContainingDocs(docs[..|docs| - 1], t)| + (if t in docs[|docs| - 1] then 1 else 0)
  {
    var n := |docs| - 1;
    var before := ContainingDocs(docs[..n], t);
    if t in docs[n] {
      assert ContainingDocs(docs, t) == before + {n};
      assert n !in before;
    } else {
      assert ContainingDocs(docs, t) == before;
    }
  }

  lemma DocFreqStep(docs: seq<seq<string>>, t: string)
    requires |docs| > 0
    ensures t in DocFreq(docs) <==> t in DocFreq(docs[..|docs| - 1]) || t in docs[|docs| - 1]
    ensures t in DocFreq(docs) ==>
      DocFreq(docs)[t] == CountOf(DocFreq(docs[..|docs| - 1]), t) + (if t in docs[|docs| - 1] then 1 else 0)
  {
    var d := docs[|docs| - 1];
    if t in d {
      var k :| 0 <= k < |d| && d[k] == t;
      assert t in Dedup(d);
    }
  }

  lemma VocabStep(docs: seq<seq<string>>, t: string)
    requires |docs| > 0
    ensures t in Vocab(docs) <==> t in Vocab(docs[..|docs| - 1]) || t in docs[|docs| - 1]
  {
    var n := |docs| - 1;
    var prev := docs[..n];
    if InSomeDoc(docs, t) {
      var i :| 0 <= i < |docs| && t in docs[i];
      if i < n {
        assert t in prev[i];
      }
    }
    if t in docs[n] {
      assert InSomeDoc(docs, t);
    }
  }

  /** The document frequency of one term. */
  lemma {:induction false} DocFreqOf(docs: seq<seq<string>>, t: string)
    ensures t in DocFreq(docs) <==> t in Vocab(docs)
    ensures t in DocFreq(docs) ==> DocFreq(docs)[t] == |ContainingDocs(docs, t)|
  {
    if |docs| > 0 {
      DocFreqOf(docs[..|docs| - 1], t);
      ContainingDocsStep(docs, t);
      DocFreqStep(docs, t);
      VocabStep(docs, t);
    }
  }

  /** Document frequency counts chunks, not occurrences: `df(t)` is the number
      of chunks containing `t`, and the terms counted are exactly the
      vocabulary. */
  lemma DocFreqCounts(docs: seq<seq<string>>)
    ensures forall t :: t in DocFreq(docs) <==> t in Vocab(docs)
    ensures forall t :: t in DocFreq(docs) ==> DocFreq(docs)[t] == |ContainingDocs(docs, t)|
  {
    forall t ensures t in DocFreq(docs) <==> t in Vocab(docs)
      ensures t in DocFreq(docs) ==> DocFreq(docs)[t] == |ContainingDocs(docs, t)|
    {
      DocFreqOf(docs, t);
    }
  }

  // ---------- inverse document frequency ----------

  /** `(N + 1) / (df + 1)`, which is at least 1 whenever `df <= N`. */
  function SmoothedRatio(n: nat, df: nat): (r: AtLeastOne)
    requires df <= n
    ensures r * ((df + 1) as real) == (n + 1) as real
  {
    var a, b := (n + 1) as real, (df + 1) as real;
    QuotientAtLeastOne(a, b);
    a / b
  }

  /** `idf(t) = ln((N + 1) / (df(t) + 1)) + 1` for every vocabulary term. */
  function Idf(vocab: set<string>, df: map<string, nat>, n: nat, ln: Ln): (r: map<string, real>)
    requires forall t :: t in df ==> df[t] <= n
    ensures r.Keys == vocab
    ensures forall t :: t in r ==> r[t] >= 1.0
  {
    map t | t in vocab :: ln(SmoothedRatio(n, CountOf(df, t))) + 1.0
  }

  // ---------- chunk vectors ----------

  /** `(count / toks.length) * (idf.get(t) || 0)`. */
  function TermWeight(toks: seq<string>, t: string, idf: map<string, real>): (w: real)
    requires |toks| > 0
    ensures WeightOf(idf, t) >= 0.0 ==> w >= 0.0
    ensures t in toks && WeightOf(idf, t) > 0.0 ==> w > 0.0
    ensures t !in toks || WeightOf(idf, t) == 0.0 ==> w == 0.0
    ensures t in toks ==> (w > 0.0 <==> WeightOf(idf, t) > 0.0)
  {
    var tf := Count(toks, t) as real / |toks| as real;
    assert tf >= 0.0;
    assert t in toks ==> tf > 0.0;
    tf * WeightOf(idf, t)
  }

  /** The sparse TF-IDF vector of one chunk: one entry per distinct term. */
  function ChunkVector(toks: seq<string>, idf: map<string, real>): (v: map<string, real>)
    ensures forall t :: t in v <==> t in toks
    ensures (forall t :: t in idf ==> idf[t] >= 0.0) ==> forall t :: t in v ==> v[t] >= 0.0
  {
    map t | t in toks :: TermWeight(toks, t, idf)
  }

  /** Sum of the squared weights of `terms` in `v`. */
  function SumSquaresOver(terms: seq<string>, v: map<string, real>): NonNegReal
    requires forall k :: 0 <= k < |terms| ==> terms[k] in v
  {
    if |terms| == 0 then 0.0
    else SumSquaresOver(terms[..|terms| - 1], v) + v[terms[|terms| - 1]] * v[terms[|terms| - 1]]
  }

  /** `Math.sqrt(norm2) || 1e-9` for one chunk vector, summing over the entries
      in insertion order. */
  function ChunkNorm(toks: seq<string>, idf: map<string, real>, sqrt: Sqrt): (n: real)
    ensures n > 0.0
  {
    var v := ChunkVector(toks, idf);
    NormFloor(sqrt(SumSquaresOver(Dedup(toks), v)))
  }

  /** What a correctly built index guarantees to `Search`. */
  ghost predicate Valid(idx: Index)
  {
    && |idx.vectors| == |idx.chunks|
    && |idx.norms| == |idx.chunks|
    && (forall i :: 0 <= i < |idx.norms| ==> idx.norms[i] > 0.0)
    && (forall i, t :: 0 <= i < |idx.vectors| && t in idx.vectors[i] ==> idx.vectors[i][t] >= 0.0)
  }

  /** One sparse vector per chunk. */
  function Vectors(docs: seq<seq<string>>, idf: map<string, real>): (vs: seq<map<string, real>>)
    requires forall t :: t in idf ==> idf[t] >= 0.0
    ensures |vs| == |docs|
    ensures forall i :: 0 <= i < |docs| ==> vs[i] == ChunkVector(docs[i], idf)
    ensures forall i, t :: 0 <= i < |vs| && t in vs[i] ==> vs[i][t] >= 0.0
  {
    seq(|docs|, i requires 0 <= i < |docs| => ChunkVector(docs[i], idf))
  }

  /** One norm per chunk, never zero. */
  function Norms(docs: seq<seq<string>>, idf: map<string, real>, sqrt: Sqrt): (ns: seq<real>)
    ensures |ns| == |docs|
    ensures forall i :: 0 <= i < |docs| ==> ns[i] == ChunkNorm(docs[i], idf, sqrt) && ns[i] > 0.0
  {
    seq(|docs|, i requires 0 <= i < |docs| => ChunkNorm(docs[i], idf, sqrt))
  }

  /** `new TfIdfIndex(chunks).build()`: the index is built once, on a fresh
      instance, as the application does. */
  function Build(chunks: seq<Chunk>, ln: Ln, sqrt: Sqrt): (r: Index)
    ensures Valid(r)
    ensures r.chunks == chunks
  {
    var docs := DocsTokens(chunks);
    var df := DocFreq(docs);
    var vocab := Vocab(docs);
    var idf := Idf(vocab, df, |chunks|, ln);
    Index(chunks, df, idf, Vectors(docs, idf), Norms(docs, idf, sqrt), vocab)
  }

  /** Document frequencies and IDF weights of a built index: `df(t)` is the
      number of chunks containing `t`, between 1 and N, and `idf(t) >= 1`, for
      exactly the vocabulary terms. */
  lemma BuildStatistics(chunks: seq<Chunk>, ln: Ln, sqrt: Sqrt)
    ensures var r := Build(chunks, ln, sqrt);
      && r.df.Keys == r.vocab
      && r.idf.Keys == r.vocab
      && (forall t :: t in r.vocab <==> exists i :: 0 <= i < |chunks| && t in Tokenize(chunks[i].text))
      && (forall t :: t in r.df ==>
            r.df[t] == |ContainingDocs(DocsTokens(chunks), t)| && 1 <= r.df[t] <= |chunks|)
      && (forall t :: t in r.idf ==> r.idf[t] >= 1.0)
  {
    var docs := DocsTokens(chunks);
    var df := DocFreq(docs);
    var vocab := Vocab(docs);
    var idf := Idf(vocab, df, |chunks|, ln);
    assert Build(chunks, ln, sqrt) == Index(chunks, df, idf, Vectors(docs, idf), Norms(docs, idf, sqrt), vocab);
    DocFreqCounts(docs);
  }

  /** A chunk vector whose terms all carry an IDF of at least 1 weights each
      term by its frequency in the chunk times its IDF, a positive number. */
  lemma ChunkVectorWeights(toks: seq<string>, idf: map<string, real>)
    requires forall k :: 0 <= k < |toks| ==> toks[k] in idf && idf[toks[k]] >= 1.0
    ensures forall t :: t in ChunkVector(toks, idf) ==>
      t in idf &&
      ChunkVector(toks, idf)[t] == TermWeight(toks, t, idf) &&
      ChunkVector(toks, idf)[t] > 0.0
  {
    var v := ChunkVector(toks, idf);
    forall t | t in v
      ensures t in idf && v[t] == TermWeight(toks, t, idf) && v[t] > 0.0
    {
      var k :| 0 <= k < |toks| && toks[k] == t;
    }
  }

  /** The vectors of a built index: chunk `i`'s keys are exactly its distinct
      tokens, each weighted by its frequency in the chunk times its IDF, which
      is positive. */
  lemma BuildVectors(chunks: seq<Chunk>, ln: Ln, sqrt: Sqrt, i: nat)
    requires i < |chunks|
    ensures forall t :: t in Build(chunks, ln, sqrt).vectors[i] <==> t in Tokenize(chunks[i].text)
    ensures forall t :: t in Build(chunks, ln, sqrt).vectors[i] ==>
      t in Build(chunks, ln, sqrt).idf &&
      Build(chunks, ln, sqrt).vectors[i][t] ==
        TermWeight(Tokenize(chunks[i].text), t, Build(chunks, ln, sqrt).idf) &&
      Build(chunks, ln, sqrt).vectors[i][t] > 0.0
  {
    var r := Build(chunks, ln, sqrt);
    var docs := DocsTokens(chunks);
    var toks := docs[i];
    forall k | 0 <= k < |toks| ensures toks[k] in r.idf && r.idf[toks[k]] >= 1.0 {
      assert InSomeDoc(docs, toks[k]);
    }
    ChunkVectorWeights(toks, r.idf);
  }

  /** The norms of a built index: chunk `i`'s norm is the floored root of the
      summed squares of its built vector's weights, one per distinct token. */
  lemma BuildNorms(chunks: seq<Chunk>, ln: Ln, sqrt: Sqrt, i: nat)
    requires i < |chunks|
    ensures forall k :: 0 <= k < |Dedup(Tokenize(chunks[i].text))| ==>
      Dedup(Tokenize(chunks[i].text))[k] in Build(chunks, ln, sqrt).vectors[i]
    ensures Build(chunks, ln, sqrt).norms[i]
      == NormFloor(sqrt(SumSquaresOver(Dedup(Tokenize(chunks[i].text)), Build(chunks, ln, sqrt).vectors[i])))
  {
    var docs := DocsTokens(chunks);
    var df := DocFreq(docs);
    var vocab := Vocab(docs);
    var idf := Idf(vocab, df, |chunks|, ln);
    assert Build(chunks, ln, sqrt) == Index(chunks, df, idf, Vectors(docs, idf), Norms(docs, idf, sqrt), vocab);
    assert docs[i] == Tokenize(chunks[i].text);
  }

  // ---------- search ----------

  /** One entry of the query vector `qvec`, in insertion order. */
  datatype QueryTerm = QueryTerm(term: string, weight: real)

  /** The query vector: for each distinct query token, in first-occurrence
      order, its weight `(count / qTokens.length) * (idf.get(t) || 0)`, kept
      only when positive. */
  function QueryTerms(idf: map<string, real>, qTokens: seq<string>, terms: seq<string>): (q: seq<QueryTerm>)
    requires |terms| > 0 ==> |qTokens| > 0
    ensures forall k :: 0 <= k < |q| ==> q[k].weight > 0.0 && q[k].term in terms
    ensures Distinct(terms) ==> forall a, b :: 0 <= a < b < |q| ==> q[a].term != q[b].term
  {
    if |terms| == 0 then []
    else
      var w := TermWeight(qTokens, terms[0], idf);
      var rest := QueryTerms(idf, qTokens, terms[1..]);
      if w > 0.0 then [QueryTerm(terms[0], w)] + rest else rest
  }

  /** `qvec`: one entry per distinct query term, each with a positive weight. */
  function QueryVector(idf: map<string, real>, query: string): (q: seq<QueryTerm>)
    ensures forall k :: 0 <= k < |q| ==> q[k].weight > 0.0 && q[k].term in Tokenize(query)
    ensures forall a, b :: 0 <= a < b < |q| ==> q[a].term != q[b].term
  {
    var toks := Tokenize(query);
    QueryTerms(idf, toks, Dedup(toks))
  }

  function QuerySumSquares(q: seq<QueryTerm>): NonNegReal
  {
    if |q| == 0 then 0.0 else QuerySumSquares(q[..|q| - 1]) + q[|q| - 1].weight * q[|q| - 1].weight
  }

  /** The sparse dot product: query entries whose term has a non-zero weight
      in the chunk vector (`if (dw) dot += qw * dw`). */
  function SparseDot(q: seq<QueryTerm>, d: map<string, real>): (r: real)
    ensures (forall k :: 0 <= k < |q| ==> q[k].term !in d) ==> r == 0.0
  {
    if |q| == 0 then 0.0
    else
      var e := q[|q| - 1];
      SparseDot(q[..|q| - 1], d) + (if e.term in d && d[e.term] != 0.0 then e.weight * d[e.term] else 0.0)
  }

  /** `dot / (qnorm * norms[i])` for every chunk, in chunk order. */
  function ScoredHits(idx: Index, query: string, sqrt: Sqrt): (hits: seq<Hit>)
    requires Valid(idx)
    ensures |hits| == |idx.chunks|
    ensures forall i :: 0 <= i < |hits| ==> hits[i].chunk == idx.chunks[i] && hits[i].via == Keyword
    ensures forall i :: 0 <= i < |hits| ==>
      (hits[i].score > 0.0 <==> SparseDot(QueryVector(idx.idf, query), idx.vectors[i]) > 0.0)
    ensures forall i :: 0 <= i < |hits| ==>
      hits[i].score == Cosine(SparseDot(QueryVector(idx.idf, query), idx.vectors[i]),
                              NormFloor(sqrt(QuerySumSquares(QueryVector(idx.idf, query)))), idx.norms[i])
  {
    var q := QueryVector(idx.idf, query);
    var qnorm := NormFloor(sqrt(QuerySumSquares(q)));
    assert forall i :: 0 <= i < |idx.chunks| ==> SparseDot(q, idx.vectors[i]) >= 0.0 by {
      forall i | 0 <= i < |idx.chunks| ensures SparseDot(q, idx.vectors[i]) >= 0.0 {
        SparseDotNonNegative(q, idx.vectors[i]);
      }
    }
    seq(|idx.chunks|, i requires 0 <= i < |idx.chunks| =>
      Hit(idx.chunks[i], Cosine(SparseDot(q, idx.vectors[i]), qnorm, idx.norms[i]), Keyword))
  }

  /** `dot / (qnorm * norm)` with both norms positive: a non-negative dot
      product gives a non-negative score, positive exactly when it is. */
  function Cosine(dot: real, qnorm: real, norm: real): (s: real)
    requires qnorm > 0.0 && norm > 0.0
    ensures dot >= 0.0 ==> s >= 0.0 && (s > 0.0 <==> dot > 0.0)
    ensures s * (qnorm * norm) == dot
  {
    var den := qnorm * norm;
    assert den > 0.0;
    dot / den
  }

  /** `search(query, topK)`: every chunk scored, ranked by descending score
      (ties in chunk order) and cut to `topK`. */
  function Search(idx: Index, query: string, topK: int, sqrt: Sqrt): (r: seq<Hit>)
    requires Valid(idx)
    ensures |r| == SliceEnd(|idx.chunks|, topK)
    ensures topK >= 0 ==> |r| == if topK < |idx.chunks| then topK else |idx.chunks|
    ensures forall k :: 0 <= k < |r| ==> r[k].via == Keyword && r[k] in ScoredHits(idx, query, sqrt)
    ensures forall a, b :: 0 <= a < b < |r| ==> r[a].score >= r[b].score
  {
    var ranked := RankByScore(ScoredHits(idx, query, sqrt));
    assert forall k :: 0 <= k < |ranked| ==> ranked[k] in multiset(ranked);
    Take(ranked, topK)
  }

  /** Whether the query vector has an entry for `t`. */
  predicate HasTerm(q: seq<QueryTerm>, t: string)
  {
    exists k :: 0 <= k < |q| && q[k].term == t
  }

  lemma HasTermCons(e: QueryTerm, rest: seq<QueryTerm>, t: string)
    ensures HasTerm([e] + rest, t) <==> e.term == t || HasTerm(rest, t)
  {
    var q := [e] + rest;
    if HasTerm(rest, t) {
      var k :| 0 <= k < |rest| && rest[k].term == t;
      assert q[k + 1].term == t;
    }
    if e.term == t {
      assert q[0].term == t;
    }
    if HasTerm(q, t) && e.term != t {
      var k :| 0 <= k < |q| && q[k].term == t;
      assert rest[k - 1].term == t;
    }
  }

  lemma {:induction false} QueryTermsMembers(idf: map<string, real>, qTokens: seq<string>, terms: seq<string>)
    requires |qTokens| > 0
    requires forall k :: 0 <= k < |terms| ==> terms[k] in qTokens
    ensures forall t :: HasTerm(QueryTerms(idf, qTokens, terms), t) <==> t in terms && WeightOf(idf, t) > 0.0
  {
    if |terms| > 0 {
      var x := terms[0];
      QueryTermsMembers(idf, qTokens, terms[1..]);
      var rest := QueryTerms(idf, qTokens, terms[1..]);
      var w := TermWeight(qTokens, x, idf);
      assert w > 0.0 <==> WeightOf(idf, x) > 0.0;
      assert forall t :: t in terms <==> t == x || t in terms[1..] by {
        assert terms == [x] + terms[1..];
      }
      if w > 0.0 {
        forall t ensures HasTerm([QueryTerm(x, w)] + rest, t) <==> t == x || HasTerm(rest, t) {
          HasTermCons(QueryTerm(x, w), rest, t);
        }
      }
    }
  }

  /** The query vector holds a term exactly when the query's tokens include
      it and its IDF is positive; unknown terms contribute nothing. */
  lemma QueryVectorTerms(idf: map<string, real>, query: string)
    ensures forall t :: HasTerm(QueryVector(idf, query), t) <==> t in Tokenize(query) && WeightOf(idf, t) > 0.0
  {
    var toks := Tokenize(query);
    if |toks| > 0 {
      QueryTermsMembers(idf, toks, Dedup(toks));
    }
  }

  lemma {:induction false} SparseDotNonNegative(q: seq<QueryTerm>, d: map<string, real>)
    requires forall k :: 0 <= k < |q| ==> q[k].weight > 0.0
    requires forall t :: t in d ==> d[t] >= 0.0
    ensures SparseDot(q, d) >= 0.0
  {
    if |q| > 0 {
      SparseDotNonNegative(q[..|q| - 1], d);
      var e := q[|q| - 1];
      if e.term in d {
        var x, y := e.weight, d[e.term];
        assert x * y >= 0.0 by {
          assert x > 0.0 && y >= 0.0;
        }
      }
    }
  }

  /** Some query term has a positive weight in the chunk vector `d`. */
  predicate Overlaps(q: seq<QueryTerm>, d: map<string, real>)
  {
    exists k :: 0 <= k < |q| && q[k].term in d && d[q[k].term] > 0.0
  }

  lemma OverlapsSnoc(q: seq<QueryTerm>, d: map<string, real>)
    requires |q| > 0
    ensures var e := q[|q| - 1];
      Overlaps(q, d) <==> Overlaps(q[..|q| - 1], d) || (e.term in d && d[e.term] > 0.0)
  {
    var p := q[..|q| - 1];
    if Overlaps(q, d) {
      var k :| 0 <= k < |q| && q[k].term in d && d[q[k].term] > 0.0;
      if k < |p| {
        assert p[k] == q[k];
      }
    }
    if Overlaps(p, d) {
      var k :| 0 <= k < |p| && p[k].term in d && d[p[k].term] > 0.0;
      assert q[k] == p[k];
    }
  }

  lemma ProductSign(x: real, y: real)
    requires x > 0.0 && y >= 0.0
    ensures x * y >= 0.0
    ensures y > 0.0 ==> x * y > 0.0
  {
  }

  /** With positive query weights and non-negative chunk weights, the dot
      product is positive exactly when some query term has a positive weight
      in the chunk. */
  lemma {:induction false} SparseDotPositive(q: seq<QueryTerm>, d: map<string, real>)
    requires forall k :: 0 <= k < |q| ==> q[k].weight > 0.0
    requires forall t :: t in d ==> d[t] >= 0.0
    ensures SparseDot(q, d) > 0.0 <==> Overlaps(q, d)
  {
    if |q| > 0 {
      var p := q[..|q| - 1];
      var e := q[|q| - 1];
      SparseDotPositive(p, d);
      SparseDotNonNegative(p, d);
      OverlapsSnoc(q, d);
      if e.term in d {
        ProductSign(e.weight, d[e.term]);
      }
    }
  }

  /** In any valid index a chunk scores above zero exactly when some query
      term has a positive weight in its vector. */
  lemma ScorePositive(idx: Index, query: string, sqrt: Sqrt, i: nat)
    requires Valid(idx) && i < |idx.chunks|
    ensures ScoredHits(idx, query, sqrt)[i].score > 0.0 <==> Overlaps(QueryVector(idx.idf, query), idx.vectors[i])
  {
    SparseDotPositive(QueryVector(idx.idf, query), idx.vectors[i]);
  }


  /** In a built index, some query term has a positive weight in chunk `i`
      exactly when the chunk and the query share a token. */
  lemma SharedTerm(chunks: seq<Chunk>, ln: Ln, sqrt: Sqrt, query: string, i: nat)
    requires i < |chunks|
    ensures var idx := Build(chunks, ln, sqrt);
      Overlaps(QueryVector(idx.idf, query), idx.vectors[i]) <==>
      exists t :: t in Tokenize(query) && t in Tokenize(chunks[i].text)
  {
    var idx := Build(chunks, ln, sqrt);
    var q := QueryVector(idx.idf, query);
    var d := idx.vectors[i];
    QueryVectorTerms(idx.idf, query);
    BuildVectors(chunks, ln, sqrt, i);
    if Overlaps(q, d) {
      var k :| 0 <= k < |q| && q[k].term in d && d[q[k].term] > 0.0;
      var t := q[k].term;
      assert HasTerm(q, t);
      assert t in Tokenize(query) && t in Tokenize(chunks[i].text);
    }
    if exists t :: t in Tokenize(query) && t in Tokenize(chunks[i].text) {
      var t :| t in Tokenize(query) && t in Tokenize(chunks[i].text);
      assert t in idx.idf && idx.idf[t] > 0.0;
      assert HasTerm(q, t);
      var k :| 0 <= k < |q| && q[k].term == t;
      assert q[k].term in d && d[q[k].term] > 0.0;
    }
  }

  /** A chunk of a built index scores above zero exactly when it shares a
      token with the query. */
  lemma ScoredHitPositive(chunks: seq<Chunk>, ln: Ln, sqrt: Sqrt, query: string, i: nat)
    requires i < |chunks|
    ensures ScoredHits(Build(chunks, ln, sqrt), query, sqrt)[i].score > 0.0 <==>
      exists t :: t in Tokenize(query) && t in Tokenize(chunks[i].text)
  {
    ScorePositive(Build(chunks, ln, sqrt), query, sqrt, i);
    SharedTerm(chunks, ln, sqrt, query, i);
  }

  /** Keyword scores are never negative. */
  lemma ScoresNonNegative(idx: Index, query: string, sqrt: Sqrt)
    requires Valid(idx)
    ensures forall i :: 0 <= i < |idx.chunks| ==> ScoredHits(idx, query, sqrt)[i].score >= 0.0
  {
    var q := QueryVector(idx.idf, query);
    var qnorm := NormFloor(sqrt(QuerySumSquares(q)));
    forall i | 0 <= i < |idx.chunks| ensures ScoredHits(idx, query, sqrt)[i].score >= 0.0 {
      SparseDotNonNegative(q, idx.vectors[i]);
      assert ScoredHits(idx, query, sqrt)[i].score == Cosine(SparseDot(q, idx.vectors[i]), qnorm, idx.norms[i]);
    }
  }

  /** A query none of whose tokens has a positive IDF (the empty query
      included) scores every chunk 0. */
  lemma UnknownQueryScoresZero(idx: Index, query: string, sqrt: Sqrt)
    requires Valid(idx)
    requires forall k :: 0 <= k < |Tokenize(query)| ==> WeightOf(idx.idf, Tokenize(query)[k]) <= 0.0
    ensures forall i :: 0 <= i < |idx.chunks| ==> ScoredHits(idx, query, sqrt)[i].score == 0.0
  {
    var q := QueryVector(idx.idf, query);
    QueryVectorTerms(idx.idf, query);
  }

  /** The ranking behind `search` is stable: equal scores keep chunk order,
      and result `k` is the scored hit of chunk `p[k]` for a permutation `p`. */
  lemma SearchStable(idx: Index, query: string, topK: int, sqrt: Sqrt)
    requires Valid(idx)
    ensures var p := Sorting.ArgSort(Scores(ScoredHits(idx, query, sqrt)));
      && Sorting.IsPermutation(p, |idx.chunks|)
      && (forall k :: 0 <= k < |Search(idx, query, topK, sqrt)| ==>
            Search(idx, query, topK, sqrt)[k] == ScoredHits(idx, query, sqrt)[p[k]])
      && (forall a, b :: (0 <= a < b < |Search(idx, query, topK, sqrt)| &&
            Search(idx, query, topK, sqrt)[a].score == Search(idx, query, topK, sqrt)[b].score) ==> p[a] < p[b])
  {
    RankByScoreStable(ScoredHits(idx, query, sqrt));
  }
}

=== FILE: numerics.dfy ===
/** The numeric vocabulary of the scoring code. Floating point is replaced by
    exact reals; `Math.log` and `Math.sqrt` are not computed but passed in as
    functions whose types carry the only facts the engine needs of them. */
module Numerics {

  type NonNegReal = r: real | r >= 0.0

  type AtLeastOne = r: real | r >= 1.0 witness 1.0

  /** Stand-in for `Math.log`, restricted to the arguments the smoothed IDF
      formula can produce (at least 1), where the logarithm is non-negative. */
  type Ln = AtLeastOne -> NonNegReal

  /** Stand-in for `Math.sqrt` on non-negative arguments. */
  type Sqrt = NonNegReal -> NonNegReal

  /** `Math.min` and `Math.max` on integers. */
  function Min(a: int, b: int): int { if a < b then a else b }
  function Max(a: int, b: int): int { if a < b then b else a }

  /** The norm floor `1e-9`. */
  const Epsilon: real := 0.000000001

  /** `Math.sqrt(x) || 1e-9`: a zero square root is replaced by the floor, so
      that a norm can always be divided by. */
  function NormFloor(root: NonNegReal): (n: real)
    ensures n > 0.0
    ensures root > 0.0 ==> n == root
    ensures root == 0.0 ==> n == Epsilon
  {
    if root == 0.0 then Epsilon else root
  }

  /** Dividing by a positive number no larger than the dividend gives at
      least 1, and multiplying back gives the dividend. */
  lemma QuotientAtLeastOne(a: real, b: real)
    requires a >= b > 0.0
    ensures a / b >= 1.0 && (a / b) * b == a
  {
  }

  /** Sum of the squares of the components of a dense vector. */
  function SumSquares(v: seq<real>): (r: NonNegReal)
  {
    if |v| == 0 then 0.0 else SumSquares(v[..|v| - 1]) + v[|v| - 1] * v[|v| - 1]
  }

  /** Dense dot product, `VectorIndex.dot`, over vectors of equal length. */
  function Dot(a: seq<real>, b: seq<real>): real
    requires |a| == |b|
  {
    if |a| == 0 then 0.0 else Dot(a[..|a| - 1], b[..|b| - 1]) + a[|a| - 1] * b[|b| - 1]
  }

  /** A vector dotted with itself is its squared length. */
  lemma {:induction false} DotSelf(a: seq<real>)
    ensures Dot(a, a) == SumSquares(a)
  {
    if |a| > 0 {
      DotSelf(a[..|a| - 1]);
    }
  }
}

=== FILE: results.dfy ===
/** Failure-carrying values used across the model: a missing value, and an
    outcome that is either a value or the message of a thrown error. */
module Results {

  datatype Option<+T> = None | Some(value: T)

  /** `Err` stands for a JavaScript exception; `message` is its text. */
  datatype Result<+T> = Ok(value: T) | Err(message: string)
}

=== FILE: retrieval.dfy ===
/** The records the engine passes around: chunks of a document and scored
    retrieval results, and the stable ranking of results by score. */
module Retrieval {
  import opened Sorting

  /** Half-open word range `[startWord, endWord)` of a chunk in its source text. */
  datatype Span = Span(startWord: nat, endWord: nat)

  datatype Chunk = Chunk(id: nat, text: string, meta: Span)

  /** The `method` tag of a result: `"keyword"`, `"vector"` or `"hybrid"`. */
  datatype Method = Keyword | Vector | Hybrid

  /** A scored result; `via` is the source's `method` field (a Dafny keyword). */
  datatype Hit = Hit(chunk: Chunk, score: real, via: Method)

  function Scores(hits: seq<Hit>): (r: seq<real>)
    ensures |r| == |hits| && forall i :: 0 <= i < |hits| ==> r[i] == hits[i].score
  {
    seq(|hits|, i requires 0 <= i < |hits| => hits[i].score)
  }

  function Ids(hits: seq<Hit>): (r: seq<nat>)
    ensures |r| == |hits| && forall i :: 0 <= i < |hits| ==> r[i] == hits[i].chunk.id
  {
    seq(|hits|, i requires 0 <= i < |hits| => hits[i].chunk.id)
  }

  /** `hits.sort((a, b) => b.score - a.score)`: the same results, highest score
      first. Which of two equal scores comes first is stated by
      `RankByScoreStable`. */
  function RankByScore(hits: seq<Hit>): (r: seq<Hit>)
    ensures |r| == |hits|
    ensures multiset(r) == multiset(hits)
    ensures forall a, b :: 0 <= a < b < |r| ==> r[a].score >= r[b].score
  {
    var keys := Scores(hits);
    var p := ArgSort(keys);
    ArgSortIsPermutation(keys);
    PermuteMultiset(hits, p);
    assert forall a, b :: 0 <= a < b < |p| ==> Precedes(keys, p[a], p[b]);
    Permute(hits, p)
  }

  /** Stability: the ranking applies the stable descending permutation of the
      scores, so results with equal scores keep their input order. */
  lemma RankByScoreStable(hits: seq<Hit>)
    ensures var p := ArgSort(Scores(hits));
      && IsPermutation(p, |hits|)
      && (forall k :: 0 <= k < |hits| ==> RankByScore(hits)[k] == hits[p[k]])
      && (forall a, b :: 0 <= a < b < |hits| && hits[p[a]].score == hits[p[b]].score ==> p[a] < p[b])
  {
    var p := ArgSort(Scores(hits));
    ArgSortIsPermutation(Scores(hits));
    forall a, b | 0 <= a < b < |hits| && hits[p[a]].score == hits[p[b]].score
      ensures p[a] < p[b]
    {
      assert Precedes(Scores(hits), p[a], p[b]);
    }
  }

  /** Ranking results that are already in descending order changes nothing;
      in particular ranking is idempotent. */
  lemma RankByScoreOfDescending(hits: seq<Hit>)
    requires forall a, b :: 0 <= a < b < |hits| ==> hits[a].score >= hits[b].score
    ensures RankByScore(hits) == hits
  {
    ArgSortOfDescending(Scores(hits));
  }

  lemma RankByScoreIdempotent(hits: seq<Hit>)
    ensures RankByScore(RankByScore(hits)) == RankByScore(hits)
  {
    RankByScoreOfDescending(RankByScore(hits));
  }
}

=== FILE: seqs.dfy ===
/** Sequence helpers mirroring the JavaScript collection idioms the engine uses:
    insertion-ordered `Set` de-duplication, occurrence counting, `slice(0, k)`
    and string concatenation. */
module Seqs {

  predicate Distinct<T(==)>(s: seq<T>)
  {
    forall i, j :: 0 <= i < j < |s| ==> s[i] != s[j]
  }

  /** The distinct elements of `s` in order of first occurrence: the iteration
      order of `new Set(s)`. Each element is added as `Set.add` would. */
  function Dedup<T(==)>(s: seq<T>): (r: seq<T>)
    ensures forall i :: 0 <= i < |r| ==> r[i] in s
    ensures forall i :: 0 <= i < |s| ==> s[i] in r
    ensures Distinct(r)
    ensures |r| <= |s|
  {
    if |s| == 0 then []
    else
      var d := Dedup(s[..|s| - 1]);
      assert s == s[..|s| - 1] + [s[|s| - 1]];
      if s[|s| - 1] in d then d else d + [s[|s| - 1]]
  }

  /** First-occurrence order: every element listed before `r[b]` in `Dedup(s)`
      already occurs in `s` before any occurrence of `r[b]`. */
  lemma {:induction false} DedupFirstOccurrenceOrder<T>(s: seq<T>)
    ensures forall a, b, j :: 0 <= a < b < |Dedup(s)| && 0 <= j < |s| && s[j] == Dedup(s)[b] ==>
      Dedup(s)[a] in s[..j]
  {
    if |s| > 0 {
      var p := s[..|s| - 1];
      var d := Dedup(p);
      DedupFirstOccurrenceOrder(p);
      var r := Dedup(s);
      assert s == p + [s[|s| - 1]];
      assert |r| == |d| || (|r| == |d| + 1 && r[|d|] == s[|s| - 1] && s[|s| - 1] !in d);
      assert forall k :: 0 <= k < |d| ==> r[k] == d[k];
      forall a, b, j | 0 <= a < b < |r| && 0 <= j < |s| && s[j] == r[b]
        ensures r[a] in s[..j]
      {
        assert r[a] == d[a];
        if b < |d| {
          assert r[b] == d[b];
          if j < |s| - 1 {
            assert p[j] == d[b];
            assert d[a] in p[..j];
            assert p[..j] == s[..j];
          } else {
            assert d[b] in p;
            var j' :| 0 <= j' < |p| && p[j'] == d[b];
            assert d[a] in p[..j'];
            assert p[..j'] == s[..j'];
            assert s[..j'] <= s[..j];
          }
        } else {
          assert r[b] !in d;
          assert r[b] !in p;
          assert j == |s| - 1;
          assert d[a] in p;
          assert p == s[..j];
        }
      }
    }
  }

  /** De-duplicating a sequence without repeats changes nothing. */
  lemma {:induction false} DedupOfDistinct<T>(s: seq<T>)
    requires Distinct(s)
    ensures Dedup(s) == s
  {
    if |s| > 0 {
      var p := s[..|s| - 1];
      DedupOfDistinct(p);
      assert s[|s| - 1] !in p;
      assert s == p + [s[|s| - 1]];
    }
  }

  /** Appending elements that already occur adds nothing to `Dedup`. */
  lemma {:induction false} DedupAppendSeen<T>(s: seq<T>, t: seq<T>)
    requires forall k :: 0 <= k < |t| ==> t[k] in s
    ensures Dedup(s + t) == Dedup(s)
  {
    if |t| == 0 {
      assert s + t == s;
    } else {
      var u := t[..|t| - 1];
      DedupAppendSeen(s, u);
      assert (s + t)[..|s + t| - 1] == s + u;
      assert (s + t)[|s + t| - 1] == t[|t| - 1];
    }
  }

  /** Number of occurrences of `x` in `s`. */
  function Count<T(==)>(s: seq<T>, x: T): (n: nat)
    ensures n <= |s|
    ensures n > 0 <==> x in s
  {
    if |s| == 0 then 0
    else
      assert s == [s[0]] + s[1..];
      (if s[0] == x then 1 else 0) + Count(s[1..], x)
  }

  /** The end index that `Array.prototype.slice(0, k)` uses on a sequence of
      length `len`: a negative `k` counts back from the end (section 23.1.3.28
      of ECMA-262, 2024 edition). */
  function SliceEnd(len: nat, k: int): (e: nat)
    ensures e <= len
    ensures k >= 0 ==> e == if k < len then k else len
    ensures k < 0 ==> e == if len + k > 0 then len + k else 0
  {
    if k < 0 then (if len + k > 0 then len + k else 0)
    else if k < len then k
    else len
  }

  /** `s.slice(0, k)`. */
  function Take<T>(s: seq<T>, k: int): (r: seq<T>)
    ensures |r| == SliceEnd(|s|, k)
    ensures forall i :: 0 <= i < |r| ==> r[i] == s[i]
  {
    s[..SliceEnd(|s|, k)]
  }

  function Concat(ss: seq<string>): (r: string)
  {
    if |ss| == 0 then "" else ss[0] + Concat(ss[1..])
  }

  lemma {:induction false} ConcatAppend(ss: seq<string>, s: string)
    ensures Concat(ss + [s]) == Concat(ss) + s
  {
    if |ss| == 0 {
      assert ss + [s] == [s];
    } else {
      assert (ss + [s])[1..] == ss[1..] + [s];
      ConcatAppend(ss[1..], s);
    }
  }

  /** Lengths of concatenated prefixes never shrink. */
  lemma {:induction false} ConcatPrefixLength(ss: seq<string>, i: nat, j: nat)
    requires i <= j <= |ss|
    ensures |Concat(ss[..i])| <= |Concat(ss[..j])|
  {
    if i < j {
      ConcatPrefixLength(ss, i, j - 1);
      assert ss[..j] == ss[..j - 1] + [ss[j - 1]];
      ConcatAppend(ss[..j - 1], ss[j - 1]);
    }
  }
}

=== FILE: sorting.dfy ===
/** A stable sort by descending key, the behaviour of
    `Array.prototype.sort((a, b) => b.score - a.score)`: the sort is required
    to be stable (section 23.1.3.30 of ECMA-262, 2024 edition), so equal keys
    keep their input order. The sort is described by the permutation of input
    positions it applies. */
module Sorting {

  /** Position `i` is placed before position `j`: a larger key first, and on
      equal keys the earlier position first. A strict total order on
      positions. */
  predicate Precedes(keys: seq<real>, i: nat, j: nat)
    requires i < |keys| && j < |keys|
  {
    keys[i] > keys[j] || (keys[i] == keys[j] && i < j)
  }

  predicate InRange(p: seq<nat>, n: nat)
  {
    forall k :: 0 <= k < |p| ==> p[k] < n
  }

  /** `p` lists positions in the order of a stable descending sort. */
  predicate SortedBy(keys: seq<real>, p: seq<nat>)
    requires InRange(p, |keys|)
  {
    forall a, b :: 0 <= a < b < |p| ==> Precedes(keys, p[a], p[b])
  }

  function Insert(keys: seq<real>, i: nat, p: seq<nat>): (r: seq<nat>)
    requires i < |keys| && InRange(p, |keys|) && SortedBy(keys, p)
    requires i !in p
    ensures |r| == |p| + 1 && InRange(r, |keys|) && SortedBy(keys, r)
    ensures forall x :: x in r <==> x == i || x in p
  {
    if |p| == 0 || Precedes(keys, i, p[0]) then [i] + p
    else
      var t := Insert(keys, i, p[1..]);
      assert forall x :: x in t ==> Precedes(keys, p[0], x);
      [p[0]] + t
  }

  function SortFrom(keys: seq<real>, lo: nat): (r: seq<nat>)
    requires lo <= |keys|
    ensures |r| == |keys| - lo && InRange(r, |keys|) && SortedBy(keys, r)
    ensures forall x :: x in r <==> lo <= x < |keys|
    decreases |keys| - lo
  {
    if lo == |keys| then [] else Insert(keys, lo, SortFrom(keys, lo + 1))
  }

  /** The permutation a stable descending sort applies: every position
      appears once, larger keys first, equal keys in input order. */
  function ArgSort(keys: seq<real>): (p: seq<nat>)
    ensures |p| == |keys| && InRange(p, |keys|) && SortedBy(keys, p)
    ensures forall i :: 0 <= i < |keys| ==> i in p
  {
    SortFrom(keys, 0)
  }

  /** A sorted arrangement is determined by its set of positions: there is
      exactly one stable descending order. */
  lemma {:induction false} SortedUnique(keys: seq<real>, p: seq<nat>, q: seq<nat>)
    requires InRange(p, |keys|) && InRange(q, |keys|)
    requires SortedBy(keys, p) && SortedBy(keys, q)
    requires |p| == |q|
    requires forall x :: x in p <==> x in q
    ensures p == q
    decreases |p|
  {
    if |p| > 0 {
      assert p[0] in q;
      assert q[0] in p;
      assert p[0] == q[0];
      assert p[0] !in p[1..] by {
        forall k | 0 <= k < |p| - 1 ensures p[1..][k] != p[0] {
          assert Precedes(keys, p[0], p[k + 1]);
        }
      }
      assert q[0] !in q[1..] by {
        forall k | 0 <= k < |q| - 1 ensures q[1..][k] != q[0] {
          assert Precedes(keys, q[0], q[k + 1]);
        }
      }
      assert forall x :: x in p[1..] <==> x in p && x != p[0] by {
        assert p == [p[0]] + p[1..];
      }
      assert forall x :: x in q[1..] <==> x in q && x != q[0] by {
        assert q == [q[0]] + q[1..];
      }
      SortedUnique(keys, p[1..], q[1..]);
      assert p == [p[0]] + p[1..];
      assert q == [q[0]] + q[1..];
    }
  }

  function Identity(n: nat): (p: seq<nat>)
    ensures |p| == n && forall i :: 0 <= i < n ==> p[i] == i
  {
    seq(n, i => i)
  }

  /** Sorting keys that are already in descending order moves nothing. */
  lemma ArgSortOfDescending(keys: seq<real>)
    requires forall i, j :: 0 <= i < j < |keys| ==> keys[i] >= keys[j]
    ensures ArgSort(keys) == Identity(|keys|)
  {
    var id := Identity(|keys|);
    assert SortedBy(keys, id);
    forall x ensures x in id <==> x in ArgSort(keys) {
      if x in id {
        assert 0 <= x < |keys|;
      }
      if x in ArgSort(keys) {
        assert id[x] == x;
      }
    }
    SortedUnique(keys, id, ArgSort(keys));
  }

  /** Rearranges `s` by a list of positions. */
  function Permute<T>(s: seq<T>, p: seq<nat>): (r: seq<T>)
    requires InRange(p, |s|)
    ensures |r| == |p| && forall k :: 0 <= k < |p| ==> r[k] == s[p[k]]
  {
    seq(|p|, k requires 0 <= k < |p| => s[p[k]])
  }

  predicate IsPermutation(p: seq<nat>, n: nat)
  {
    && |p| == n
    && InRange(p, n)
    && (forall i :: 0 <= i < n ==> i in p)
    && (forall a, b :: 0 <= a < b < |p| ==> p[a] != p[b])
  }

  lemma ArgSortIsPermutation(keys: seq<real>)
    ensures IsPermutation(ArgSort(keys), |keys|)
  {
    var p := ArgSort(keys);
    forall a, b | 0 <= a < b < |p| ensures p[a] != p[b] {
      assert Precedes(keys, p[a], p[b]);
    }
  }

  lemma PermuteConcat<T>(s: seq<T>, a: seq<nat>, b: seq<nat>)
    requires InRange(a, |s|) && InRange(b, |s|)
    ensures InRange(a + b, |s|)
    ensures Permute(s, a + b) == Permute(s, a) + Permute(s, b)
  {
  }

  lemma PermutePrefix<T>(s: seq<T>, n: nat, p: seq<nat>)
    requires n <= |s| && InRange(p, n)
    ensures InRange(p, |s|) && Permute(s, p) == Permute(s[..n], p)
  {
  }

  /** Removing the largest position from a permutation leaves a permutation
      of the smaller range. */
  lemma RemoveLargest(p: seq<nat>, n: nat, k: nat)
    requires IsPermutation(p, n + 1) && k < |p| && p[k] == n
    ensures IsPermutation(p[..k] + p[k + 1..], n)
  {
    var q := p[..k] + p[k + 1..];
    forall i | 0 <= i < n ensures i in q {
      assert i in p;
      var j :| 0 <= j < |p| && p[j] == i;
      if j < k {
        assert q[j] == i;
      } else {
        assert q[j - 1] == i;
      }
    }
    forall a, b | 0 <= a < b < |q| ensures q[a] != q[b] {
      var a' := if a < k then a else a + 1;
      var b' := if b < k then b else b + 1;
      assert q[a] == p[a'] && q[b] == p[b'];
    }
    forall j | 0 <= j < |q| ensures q[j] < n {
      var j' := if j < k then j else j + 1;
      assert q[j] == p[j'] && j' != k;
    }
  }

  /** Rearranging by a permutation of positions keeps every element with its
      multiplicity. */
  lemma {:induction false} PermuteMultiset<T>(s: seq<T>, p: seq<nat>)
    requires IsPermutation(p, |s|)
    ensures multiset(Permute(s, p)) == multiset(s)
    decreases |s|
  {
    if |s| > 0 {
      var n := |s| - 1;
      assert n in p;
      var k :| 0 <= k < |p| && p[k] == n;
      RemoveLargest(p, n, k);
      PermuteMultiset(s[..n], p[..k] + p[k + 1..]);
      PermuteMultisetStep(s, p, k);
    }
  }

  lemma PermuteMultisetStep<T>(s: seq<T>, p: seq<nat>, k: nat)
    requires |s| > 0 && InRange(p, |s|) && k < |p| && p[k] == |s| - 1
    requires InRange(p[..k] + p[k + 1..], |s| - 1)
    requires multiset(Permute(s[..|s| - 1], p[..k] + p[k + 1..])) == multiset(s[..|s| - 1])
    ensures multiset(Permute(s, p)) == multiset(s)
  {
    var n := |s| - 1;
    var left, right := p[..k], p[k + 1..];
    assert p == left + [n] + right;
    SplitInRange(left, right, n);
    var t := s[..n];
    PermuteAround(s, n, left, right);
    MultisetAround(Permute(t, left), Permute(t, right), s[n]);
    assert s == t + [s[n]];
  }

  lemma PermuteAround<T>(s: seq<T>, n: nat, left: seq<nat>, right: seq<nat>)
    requires n < |s| && InRange(left, n) && InRange(right, n)
    ensures InRange(left + [n] + right, |s|) && InRange(left + right, n)
    ensures Permute(s, left + [n] + right) == Permute(s[..n], left) + [s[n]] + Permute(s[..n], right)
    ensures Permute(s[..n], left + right) == Permute(s[..n], left) + Permute(s[..n], right)
  {
    PermuteConcat(s[..n], left, right);
    PermutePrefix(s, n, left);
    PermutePrefix(s, n, right);
    PermuteConcat(s, left + [n], right);
    PermuteConcat(s, left, [n]);
  }

  lemma MultisetAround<T>(a: seq<T>, b: seq<T>, x: T)
    ensures multiset(a + [x] + b) == multiset(a + b) + multiset{x}
  {
  }

  lemma SplitInRange(left: seq<nat>, right: seq<nat>, n: nat)
    requires InRange(left + right, n)
    ensures InRange(left, n) && InRange(right, n)
  {
    assert forall j :: 0 <= j < |left| ==> left[j] == (left + right)[j];
    assert forall j :: 0 <= j < |right| ==> right[j] == (left + right)[|left| + j];
  }
}

=== FILE: text.dfy ===
/** Character classes and string operations of JavaScript that the engine
    relies on: the `\s` class, `split(/\s+/).filter(Boolean)`, `join(" ")`,
    `trim()`, decimal rendering of ids and `parseInt(s, 10)`. */
module Text {
  import opened Results
  import opened Seqs

  /** The `\s` class of ECMAScript regular expressions, which is also the set
      `String.prototype.trim` removes: the WhiteSpace and LineTerminator code
      points (sections 12.2 and 12.3 of ECMA-262, 2024 edition). */
  predicate IsSpace(c: char)
  {
    var n := c as int;
    || n == 0x09 || n == 0x0A || n == 0x0B || n == 0x0C || n == 0x0D
    || n == 0x20 || n == 0xA0 || n == 0x1680
    || (0x2000 <= n <= 0x200A)
    || n == 0x2028 || n == 0x2029 || n == 0x202F || n == 0x205F
    || n == 0x3000 || n == 0xFEFF
  }

  predicate IsDigit(c: char)
  {
    '0' <= c <= '9'
  }

  predicate AllSpace(s: string)
  {
    forall k :: 0 <= k < |s| ==> IsSpace(s[k])
  }

  /** A word: a non-empty run of non-space characters. */
  predicate IsWord(w: string)
  {
    |w| > 0 && forall k :: 0 <= k < |w| ==> !IsSpace(w[k])
  }

  /** End of the run of non-space characters starting at `i`. */
  function WordEnd(s: string, i: nat): (e: nat)
    requires i <= |s|
    ensures i <= e <= |s|
    ensures forall k :: i <= k < e ==> !IsSpace(s[k])
    ensures e < |s| ==> IsSpace(s[e])
    decreases |s| - i
  {
    if i == |s| || IsSpace(s[i]) then i else WordEnd(s, i + 1)
  }

  /** `s.split(/\s+/).filter(Boolean)`: the maximal runs of non-space
      characters of `s`, in order. */
  function Words(s: string): (r: seq<string>)
    ensures forall i :: 0 <= i < |r| ==> IsWord(r[i])
    decreases |s|
  {
    if |s| == 0 then []
    else if IsSpace(s[0]) then Words(s[1..])
    else
      var e := WordEnd(s, 0);
      [s[..e]] + Words(s[e..])
  }

  /** `ws.join(" ")`. */
  function JoinSpace(ws: seq<string>): string
  {
    if |ws| == 0 then ""
    else if |ws| == 1 then ws[0]
    else ws[0] + " " + JoinSpace(ws[1..])
  }

  /** `join(" ")` puts exactly one separator between consecutive words. */
  lemma {:induction false} JoinSpaceLength(ws: seq<string>)
    requires |ws| > 0
    ensures |JoinSpace(ws)| == |Concat(ws)| + |ws| - 1
  {
    if |ws| > 1 {
      JoinSpaceLength(ws[1..]);
    }
  }

  /** The non-space characters of `s`, in order. */
  function NonSpace(s: string): string
  {
    if |s| == 0 then ""
    else (if IsSpace(s[0]) then "" else [s[0]]) + NonSpace(s[1..])
  }

  lemma {:induction false} NonSpaceAppend(a: string, b: string)
    ensures NonSpace(a + b) == NonSpace(a) + NonSpace(b)
  {
    if |a| > 0 {
      assert (a + b)[1..] == a[1..] + b;
      NonSpaceAppend(a[1..], b);
    } else {
      assert a + b == b;
    }
  }

  lemma {:induction false} NonSpaceOfWord(w: string)
    requires forall k :: 0 <= k < |w| ==> !IsSpace(w[k])
    ensures NonSpace(w) == w
  {
    if |w| > 0 {
      NonSpaceOfWord(w[1..]);
    }
  }

  /** Splitting loses exactly the whitespace: the words, concatenated, are the
      non-space characters of the text. */
  lemma {:induction false} WordsContent(s: string)
    ensures Concat(Words(s)) == NonSpace(s)
    decreases |s|
  {
    if |s| > 0 {
      if IsSpace(s[0]) {
        WordsContent(s[1..]);
      } else {
        var e := WordEnd(s, 0);
        WordsContent(s[e..]);
        assert s == s[..e] + s[e..];
        NonSpaceAppend(s[..e], s[e..]);
        NonSpaceOfWord(s[..e]);
        assert Words(s) == [s[..e]] + Words(s[e..]);
        assert ([s[..e]] + Words(s[e..]))[1..] == Words(s[e..]);
      }
    }
  }

  /** A text has no words exactly when it is empty or all whitespace. */
  lemma {:induction false} WordsEmptyIffAllSpace(s: string)
    ensures Words(s) == [] <==> AllSpace(s)
    decreases |s|
  {
    if |s| > 0 {
      if IsSpace(s[0]) {
        WordsEmptyIffAllSpace(s[1..]);
        assert AllSpace(s) <==> AllSpace(s[1..]) by {
          assert forall k :: 1 <= k < |s| ==> s[k] == s[1..][k - 1];
        }
      }
    }
  }

  /** Every character of every word comes from the text. */
  lemma {:induction false} WordsChars(s: string)
    ensures forall i, k :: 0 <= i < |Words(s)| && 0 <= k < |Words(s)[i]| ==> Words(s)[i][k] in s
    decreases |s|
  {
    if |s| > 0 {
      if IsSpace(s[0]) {
        WordsChars(s[1..]);
        assert forall c :: c in s[1..] ==> c in s;
      } else {
        var e := WordEnd(s, 0);
        WordsChars(s[e..]);
        assert forall c :: c in s[e..] ==> c in s;
        assert forall c :: c in s[..e] ==> c in s;
        var r := Words(s);
        assert r == [s[..e]] + Words(s[e..]);
        forall i, k | 0 <= i < |r| && 0 <= k < |r[i]|
          ensures r[i][k] in s
        {
          if i == 0 {
            assert r[i][k] in s[..e];
          } else {
            assert r[i] == Words(s[e..])[i - 1];
          }
        }
      }
    }
  }

  lemma {:induction false} WordEndOfWord(w: string, t: string, i: nat)
    requires IsWord(w) && i <= |w|
    requires |t| == 0 || IsSpace(t[0])
    ensures WordEnd(w + t, i) == |w|
    decreases |w| - i
  {
    if i < |w| {
      assert (w + t)[i] == w[i];
      WordEndOfWord(w, t, i + 1);
    }
  }

  /** Splitting a word followed by a space-led (or empty) rest yields the word
      and then the words of the rest. */
  lemma WordsOfWordThen(w: string, t: string)
    requires IsWord(w)
    requires |t| == 0 || IsSpace(t[0])
    ensures Words(w + t) == [w] + Words(t)
  {
    WordEndOfWord(w, t, 0);
    assert (w + t)[..|w|] == w;
    assert (w + t)[|w|..] == t;
  }

  /** Round trip: re-splitting words joined by single spaces gives them back. */
  lemma {:induction false} WordsOfJoin(ws: seq<string>)
    requires forall i :: 0 <= i < |ws| ==> IsWord(ws[i])
    ensures Words(JoinSpace(ws)) == ws
  {
    if |ws| == 1 {
      WordsOfWordThen(ws[0], "");
      assert ws[0] + "" == ws[0];
    } else if |ws| > 1 {
      var rest := JoinSpace(ws[1..]);
      WordsOfJoin(ws[1..]);
      assert ws[0] + " " + rest == ws[0] + (" " + rest);
      WordsOfWordThen(ws[0], " " + rest);
      assert (" " + rest)[1..] == rest;
      assert ws == [ws[0]] + ws[1..];
    }
  }

  /** `String.prototype.trimStart`. */
  function TrimStart(s: string): (r: string)
    ensures |r| <= |s| && r == s[|s| - |r|..]
    ensures |r| > 0 ==> !IsSpace(r[0])
    ensures AllSpace(s[..|s| - |r|])
  {
    if |s| > 0 && IsSpace(s[0]) then
      var r := TrimStart(s[1..]);
      assert AllSpace(s[1..][..|s| - 1 - |r|]);
      assert forall k :: 1 <= k < |s| - |r| ==> s[k] == s[1..][..|s| - 1 - |r|][k - 1];
      r
    else s
  }

  /** `String.prototype.trimEnd`. */
  function TrimEnd(s: string): (r: string)
    ensures |r| <= |s| && r == s[..|r|]
    ensures |r| > 0 ==> !IsSpace(r[|r| - 1])
    ensures AllSpace(s[|r|..])
  {
    if |s| > 0 && IsSpace(s[|s| - 1]) then
      var r := TrimEnd(s[..|s| - 1]);
      assert forall k :: |r| <= k < |s| - 1 ==> s[k] == s[..|s| - 1][|r|..][k - |r|];
      r
    else s
  }

  /** `r` is `s` with the all-whitespace prefix `s[..i]` and the
      all-whitespace suffix after `r` cut off. */
  predicate TrimmedAt(s: string, r: string, i: nat)
  {
    && i + |r| <= |s|
    && s[i..i + |r|] == r
    && AllSpace(s[..i])
    && AllSpace(s[i + |r|..])
  }

  /** `String.prototype.trim`: the text with leading and trailing whitespace
      removed. */
  function Trim(s: string): (r: string)
    ensures exists i :: TrimmedAt(s, r, i)
    ensures |r| <= |s|
    ensures |r| > 0 ==> !IsSpace(r[0]) && !IsSpace(r[|r| - 1])
  {
    var a := TrimStart(s);
    var r := TrimEnd(a);
    var i := |s| - |a|;
    assert s[i..][..|r|] == s[i..i + |r|];
    assert s[i + |r|..] == a[|r|..];
    assert TrimmedAt(s, r, i);
    r
  }

  /** A text trims to the empty string exactly when it is all whitespace. */
  lemma TrimEmptyIffAllSpace(s: string)
    ensures Trim(s) == "" <==> AllSpace(s)
  {
    var r := Trim(s);
    var i: nat :| TrimmedAt(s, r, i);
    if r == "" {
      forall k | 0 <= k < |s|
        ensures IsSpace(s[k])
      {
        if k < i {
          assert s[k] == s[..i][k];
        } else {
          assert s[k] == s[i..][k - i];
        }
      }
    }
  }

  // ---------- decimal numbers ----------

  function DigitChar(d: nat): (c: char)
    requires d < 10
    ensures IsDigit(c)
  {
    "0123456789"[d]
  }

  function DigitValue(c: char): (d: nat)
    requires IsDigit(c)
    ensures d < 10
  {
    (c as int) - ('0' as int)
  }

  lemma DigitRoundTrip(d: nat)
    requires d < 10
    ensures DigitValue(DigitChar(d)) == d
  {
  }

  /** Decimal rendering of a non-negative integer, as in a template literal. */
  function NatToString(n: nat): (s: string)
    ensures |s| > 0
    ensures forall k :: 0 <= k < |s| ==> IsDigit(s[k])
  {
    if n < 10 then [DigitChar(n)] else NatToString(n / 10) + [DigitChar(n % 10)]
  }

  /** Value of a string of decimal digits. */
  function DigitsValue(s: string): nat
    requires forall k :: 0 <= k < |s| ==> IsDigit(s[k])
  {
    if |s| == 0 then 0 else DigitsValue(s[..|s| - 1]) * 10 + DigitValue(s[|s| - 1])
  }

  /** Round trip: reading back a rendered number gives the number. */
  lemma {:induction false} NatToStringRoundTrip(n: nat)
    ensures DigitsValue(NatToString(n)) == n
  {
    var s := NatToString(n);
    if n < 10 {
      DigitRoundTrip(n);
    } else {
      NatToStringRoundTrip(n / 10);
      DigitRoundTrip(n % 10);
      assert s[..|s| - 1] == NatToString(n / 10);
    }
  }

  /** Length of the longest prefix of `s` made of decimal digits. */
  function DigitRun(s: string): (n: nat)
    ensures n <= |s|
    ensures forall k :: 0 <= k < n ==> IsDigit(s[k])
    ensures n < |s| ==> !IsDigit(s[n])
  {
    if |s| == 0 || !IsDigit(s[0]) then 0 else 1 + DigitRun(s[1..])
  }

  /** `parseInt(s, 10)`, with `NaN` as `None`: leading whitespace is skipped,
      one optional sign is read, then the longest run of decimal digits; with no
      digit the result is `NaN` (section 19.2.5 of ECMA-262, 2024 edition). */
  function ParseInt(s: string): (r: Option<int>)
    ensures r.None? <==> DigitRun(SignFree(TrimStart(s))) == 0
  {
    var t := TrimStart(s);
    var u := SignFree(t);
    var n := DigitRun(u);
    if n == 0 then None
    else
      var v: int := DigitsValue(u[..n]);
      Some(if |t| > 0 && t[0] == '-' then -v else v)
  }

  /** The text after one leading `+` or `-`, if any. */
  function SignFree(t: string): string
  {
    if |t| > 0 && (t[0] == '-' || t[0] == '+') then t[1..] else t
  }

  lemma {:induction false} DigitRunOfDigits(s: string)
    requires forall k :: 0 <= k < |s| ==> IsDigit(s[k])
    ensures DigitRun(s) == |s|
  {
    if |s| > 0 {
      DigitRunOfDigits(s[1..]);
    }
  }

  lemma DigitsNotSpace(s: string)
    requires forall k :: 0 <= k < |s| ==> IsDigit(s[k])
    ensures TrimStart(s) == s && SignFree(s) == s
  {
    if |s| > 0 {
      assert IsDigit(s[0]);
      assert !IsSpace(s[0]);
    }
  }

  /** Round trip: `parseInt` of a rendered non-negative integer gives it back. */
  lemma ParseIntOfNatToString(n: nat)
    ensures ParseInt(NatToString(n)) == Some(n)
  {
    var s := NatToString(n);
    DigitsNotSpace(s);
    assert TrimStart(s) == s && SignFree(s) == s;
    DigitRunOfDigits(s);
    assert DigitRun(s) == |s|;
    assert s[..|s|] == s;
    NatToStringRoundTrip(n);
  }
}

=== FILE: tokenizer.dfy ===
/** `tokenize`: lower-case the text, blank out every character that is not a
    lower-case ASCII letter, a digit or whitespace, and split on whitespace. */
module Tokenizer {
  import opened Seqs
  import opened Text

  /** `toLowerCase` on the ASCII upper-case letters; other characters are
      kept as they are. */
  function Lower(c: char): (l: char)
    ensures 'A' <= c <= 'Z' ==> 'a' <= l <= 'z' && l as int == c as int + 32
    ensures !('A' <= c <= 'Z') ==> l == c
  {
    if 'A' <= c <= 'Z' then (c as int + 32) as char else c
  }

  /** The class `[a-z0-9]`. */
  predicate IsTokenChar(c: char)
  {
    ('a' <= c <= 'z') || ('0' <= c <= '9')
  }

  predicate IsToken(t: string)
  {
    |t| > 0 && forall k :: 0 <= k < |t| ==> IsTokenChar(t[k])
  }

  /** `text.toLowerCase().replace(/[^a-z0-9\s]/g, " ")`. */
  function Normalize(s: string): (r: string)
    ensures |r| == |s|
    ensures forall k :: 0 <= k < |r| ==> IsTokenChar(r[k]) || IsSpace(r[k])
  {
    if |s| == 0 then ""
    else
      var l := Lower(s[0]);
      [if IsTokenChar(l) || IsSpace(l) then l else ' '] + Normalize(s[1..])
  }

  /** `tokenize(text)`: the terms of a text, duplicates and order kept. */
  function Tokenize(s: string): (r: seq<string>)
    ensures forall i :: 0 <= i < |r| ==> IsToken(r[i])
  {
    var n := Normalize(s);
    WordsChars(n);
    assert forall i, k :: 0 <= i < |Words(n)| && 0 <= k < |Words(n)[i]| ==> IsTokenChar(Words(n)[i][k]) by {
      forall i, k | 0 <= i < |Words(n)| && 0 <= k < |Words(n)[i]|
        ensures IsTokenChar(Words(n)[i][k])
      {
        var c := Words(n)[i][k];
        assert c in n;
        assert !IsSpace(c);
      }
    }
    Words(n)
  }

  /** The token characters of the lower-cased text, in order. */
  function TokenChars(s: string): string
  {
    if |s| == 0 then ""
    else (if IsTokenChar(Lower(s[0])) then [Lower(s[0])] else "") + TokenChars(s[1..])
  }

  lemma {:induction false} NonSpaceOfNormalize(s: string)
    ensures NonSpace(Normalize(s)) == TokenChars(s)
  {
    if |s| > 0 {
      NonSpaceOfNormalize(s[1..]);
      var l := Lower(s[0]);
      assert Normalize(s)[1..] == Normalize(s[1..]);
      assert IsTokenChar(l) ==> !IsSpace(l);
    }
  }

  /** Tokenizing keeps exactly the characters that lower-case into
      `[a-z0-9]`, in order, and drops everything else. */
  lemma TokenizeContent(s: string)
    ensures Concat(Tokenize(s)) == TokenChars(s)
  {
    WordsContent(Normalize(s));
    NonSpaceOfNormalize(s);
  }

  lemma {:induction false} NormalizeOfTokenText(s: string)
    requires forall k :: 0 <= k < |s| ==> IsTokenChar(s[k]) || s[k] == ' '
    ensures Normalize(s) == s
  {
    if |s| > 0 {
      NormalizeOfTokenText(s[1..]);
      assert s == [s[0]] + s[1..];
    }
  }

  lemma {:induction false} JoinSpaceChars(ws: seq<string>)
    requires forall i :: 0 <= i < |ws| ==> IsToken(ws[i])
    ensures forall k :: 0 <= k < |JoinSpace(ws)| ==> IsTokenChar(JoinSpace(ws)[k]) || JoinSpace(ws)[k] == ' '
  {
    if |ws| == 1 {
      assert IsToken(ws[0]);
    } else if |ws| > 1 {
      JoinSpaceChars(ws[1..]);
      var rest := JoinSpace(ws[1..]);
      var j := ws[0] + " " + rest;
      forall k | 0 <= k < |j| ensures IsTokenChar(j[k]) || j[k] == ' ' {
        if k < |ws[0]| {
          assert IsToken(ws[0]);
          assert j[k] == ws[0][k];
        } else if k == |ws[0]| {
          assert j[k] == ' ';
        } else {
          assert j[k] == rest[k - |ws[0]| - 1];
        }
      }
    }
  }

  lemma TokenIsWord(t: string)
    requires IsToken(t)
    ensures IsWord(t)
  {
    forall k | 0 <= k < |t| ensures !IsSpace(t[k]) {
      assert IsTokenChar(t[k]);
    }
  }

  /** Round trip: tokens joined by single spaces tokenize back to themselves;
      so re-tokenizing tokenized text changes nothing. */
  lemma TokenizeOfJoin(ws: seq<string>)
    requires forall i :: 0 <= i < |ws| ==> IsToken(ws[i])
    ensures Tokenize(JoinSpace(ws)) == ws
  {
    var j := JoinSpace(ws);
    JoinSpaceChars(ws);
    NormalizeOfTokenText(j);
    assert Tokenize(j) == Words(j);
    forall i | 0 <= i < |ws| ensures IsWord(ws[i]) {
      TokenIsWord(ws[i]);
    }
    WordsOfJoin(ws);
  }

  lemma TokenizeIdempotent(s: string)
    ensures Tokenize(JoinSpace(Tokenize(s))) == Tokenize(s)
  {
    TokenizeOfJoin(Tokenize(s));
  }
}

=== FILE: vector_index.dfy ===
/** `VectorIndex`: one embedding and one norm per chunk, produced in chunk
    order by an embedding model, and dot-product scoring of a query embedding
    against them. The model itself is the parameter `embed`; whether it could be
    loaded is the parameter `loadError`. */
module VectorIndex {
  import opened Results
  import opened Seqs
  import opened Numerics
  import opened Retrieval
  import Sorting

  /** Output width of the all-MiniLM-L6-v2 sentence model. */
  const Dimension: nat := 384

  type Embedding = v: seq<real> | |v| == Dimension witness seq(384, _ => 0.0)

  /** The feature-extraction pipeline (mean pooling, normalised), which may
      fail on any input. */
  type Embedder = string -> Result<Embedding>

  /** Each chunk's text is cut to this many characters before embedding. */
  const MaxEmbedChars: nat := 2000

  const NotBuilt: string := "VectorIndex not built"

  /** Reading an embedding that `build` never stored. */
  const MissingEmbedding: string := "embedding missing"

  /** `ready` records that the embedder was assigned. */
  datatype State = State(chunks: seq<Chunk>, ready: bool, embeddings: seq<Embedding>, norms: seq<real>)

  /** One `onProgress({ done, total })` call. */
  datatype Progress = Progress(done: nat, total: nat)

  datatype BuildOutcome = BuildOutcome(state: State, progress: seq<Progress>, error: Option<string>)

  /** `new VectorIndex(chunks)`. */
  function Fresh(chunks: seq<Chunk>): (s: State)
    ensures s.chunks == chunks && !s.ready && s.embeddings == [] && s.norms == []
  {
    State(chunks, false, [], [])
  }

  /** `text.slice(0, 2000)`. */
  function EmbedText(c: Chunk): (t: string)
    ensures |t| <= MaxEmbedChars && |t| <= |c.text|
    ensures t == c.text[..|t|]
    ensures |c.text| <= MaxEmbedChars ==> t == c.text
  {
    Take(c.text, MaxEmbedChars)
  }

  /** `Math.sqrt(norm2) || 1e-9` of an embedding. */
  function EmbeddingNorm(v: Embedding, sqrt: Sqrt): (n: real)
    ensures n > 0.0
    ensures Dot(v, v) >= 0.0 && n == NormFloor(sqrt(Dot(v, v)))
  {
    DotSelf(v);
    NormFloor(sqrt(SumSquares(v)))
  }

  /** Embeddings and norms are aligned with a prefix of the chunks. */
  ghost predicate Aligned(s: State)
  {
    && |s.embeddings| == |s.norms| <= |s.chunks|
    && (forall i :: 0 <= i < |s.norms| ==> s.norms[i] > 0.0)
  }

  /** `build(onProgress)`. When the model cannot be loaded the index is left
      as it was and the error is returned. Otherwise the stored embeddings
      are reset and every chunk is embedded in order, each one reported as
      progress; the first failing chunk ends the build with its error,
      keeping what was stored before it. */
  method Build(s: State, loadError: Option<string>, embed: Embedder, sqrt: Sqrt)
    returns (r: BuildOutcome)
    ensures loadError.Some? ==> r == BuildOutcome(s, [], loadError)
    ensures loadError.None? ==>
      && r.state.chunks == s.chunks
      && r.state.ready
      && Aligned(r.state)
      && |r.progress| == |r.state.embeddings|
      && (forall i :: 0 <= i < |r.state.embeddings| ==>
            embed(EmbedText(s.chunks[i])) == Ok(r.state.embeddings[i])
            && r.state.norms[i] == EmbeddingNorm(r.state.embeddings[i], sqrt)
            && r.progress[i] == Progress(i + 1, |s.chunks|))
      && (r.error.None? <==> |r.state.embeddings| == |s.chunks|)
      && (r.error.Some? ==>
            embed(EmbedText(s.chunks[|r.state.embeddings|])) == Err(r.error.value))
  {
    if loadError.Some? {
      return BuildOutcome(s, [], loadError);
    }
    var embeddings: seq<Embedding> := [];
    var norms: seq<real> := [];
    var progress: seq<Progress> := [];
    var i := 0;
    while i < |s.chunks|
      invariant i <= |s.chunks|
      invariant |embeddings| == |norms| == |progress| == i
      invariant forall j :: 0 <= j < i ==>
        embed(EmbedText(s.chunks[j])) == Ok(embeddings[j])
        && norms[j] == EmbeddingNorm(embeddings[j], sqrt)
        && progress[j] == Progress(j + 1, |s.chunks|)
    {
      var out := embed(EmbedText(s.chunks[i]));
      if out.Err? {
        return BuildOutcome(State(s.chunks, true, embeddings, norms), progress, Some(out.message));
      }
      embeddings := embeddings + [out.value];
      norms := norms + [EmbeddingNorm(out.value, sqrt)];
      progress := progress + [Progress(i + 1, |s.chunks|)];
      i := i + 1;
    }
    return BuildOutcome(State(s.chunks, true, embeddings, norms), progress, None);
  }

  /** `embedQuery(query)`. */
  function EmbedQuery(s: State, query: string, embed: Embedder): (r: Result<Embedding>)
    ensures !s.ready ==> r == Err(NotBuilt)
    ensures s.ready ==> r == embed(query)
  {
    if !s.ready then Err(NotBuilt) else embed(query)
  }

  /** `dot(q, e_i) / (1 * norms[i])` for every chunk: the query norm is taken
      to be 1, not computed. */
  function ScoredHits(s: State, q: Embedding): (hits: seq<Hit>)
    requires Aligned(s) && |s.embeddings| == |s.chunks|
    ensures |hits| == |s.chunks|
    ensures forall i :: 0 <= i < |hits| ==>
      hits[i].chunk == s.chunks[i] && hits[i].via == Vector &&
      hits[i].score * s.norms[i] == Dot(q, s.embeddings[i])
  {
    seq(|s.chunks|, i requires 0 <= i < |s.chunks| =>
      Hit(s.chunks[i], Dot(q, s.embeddings[i]) / (1.0 * s.norms[i]), Vector))
  }

  /** `search(query, topK)`. It fails before a build, when the query cannot
      be embedded, and when some chunk has no stored embedding (a build that
      stopped early); otherwise it ranks every chunk by descending score, ties
      in chunk order, and keeps the first `topK`. */
  function Search(s: State, query: string, topK: int, embed: Embedder): (r: Result<seq<Hit>>)
    requires Aligned(s)
    ensures r.Err? <==> !s.ready || embed(query).Err? || |s.embeddings| < |s.chunks|
    ensures !s.ready ==> r == Err(NotBuilt)
    ensures s.ready && embed(query).Err? ==> r == Err(embed(query).message)
    ensures r.Ok? ==>
      && |r.value| == SliceEnd(|s.chunks|, topK)
      && (forall k :: 0 <= k < |r.value| ==> r.value[k] in ScoredHits(s, embed(query).value))
      && (forall a, b :: 0 <= a < b < |r.value| ==> r.value[a].score >= r.value[b].score)
  {
    if !s.ready then Err(NotBuilt)
    else if embed(query).Err? then Err(embed(query).message)
    else if |s.embeddings| < |s.chunks| then Err(MissingEmbedding)
    else Ok(TopHits(s, embed(query).value, topK))
  }

  /** The ranked, truncated scored hits of a complete index. */
  function TopHits(s: State, q: Embedding, topK: int): (r: seq<Hit>)
    requires Aligned(s) && |s.embeddings| == |s.chunks|
    ensures |r| == SliceEnd(|s.chunks|, topK)
    ensures forall k :: 0 <= k < |r| ==> r[k] in ScoredHits(s, q)
    ensures forall a, b :: 0 <= a < b < |r| ==> r[a].score >= r[b].score
  {
    var ranked := RankByScore(ScoredHits(s, q));
    assert forall k :: 0 <= k < |ranked| ==> ranked[k] in multiset(ranked);
    Take(ranked, topK)
  }

  /** The ranking behind a successful `search` is stable: equal scores keep
      chunk order, and result `k` is the scored hit of chunk `p[k]` for a
      permutation `p`. */
  lemma SearchStable(s: State, query: string, topK: int, embed: Embedder)
    requires Aligned(s) && Search(s, query, topK, embed).Ok?
    ensures var hits := ScoredHits(s, embed(query).value);
      var r := Search(s, query, topK, embed).value;
      var p := Sorting.ArgSort(Scores(hits));
      && Sorting.IsPermutation(p, |s.chunks|)
      && (forall k :: 0 <= k < |r| ==> r[k] == hits[p[k]])
      && (forall a, b :: 0 <= a < b < |r| && r[a].score == r[b].score ==> p[a] < p[b])
  {
    RankByScoreStable(ScoredHits(s, embed(query).value));
  }
}

=== FILE: workbench.dfy ===
/** Two pure fragments of the workbench's UI handlers: the retrieval dispatch
    behind "Retrieve" together with the numeric settings it reads, and the
    citation check behind the evaluation view. */
module Workbench {
  import opened Results
  import opened Seqs
  import opened Text
  import opened Numerics
  import opened Retrieval
  import KeywordIndex
  import VectorIndex
  import Fusion

  const DefaultTopK: int := 5
  /** Hybrid retrieval asks each index for at least this many hits. */
  const HybridPoolSize: int := 10

  const EnterQuestion: string := "Enter a question"
  const BuildIndexFirst: string := "Build index first"
  const NoVectorIndex: string := "Vector index not available"

  /** `parseInt(field, 10) || fallback`: `NaN` and `0` are both falsy. */
  function SettingOr(field: string, fallback: int): (v: int)
    requires fallback != 0
    ensures v != 0
    ensures ParseInt(field).Some? && ParseInt(field).value != 0 ==> v == ParseInt(field).value
    ensures ParseInt(field).None? || ParseInt(field).value == 0 ==> v == fallback
  {
    match ParseInt(field)
    case None => fallback
    case Some(n) => if n == 0 then fallback else n
  }

  /** The `topK` field, defaulting to 5. */
  function TopKSetting(field: string): (v: int)
    ensures v != 0
    ensures ParseInt(field).Some? && ParseInt(field).value != 0 ==> v == ParseInt(field).value
    ensures ParseInt(field).None? || ParseInt(field).value == 0 ==> v == 5
  {
    SettingOr(field, DefaultTopK)
  }

  /** The `rrfK` field as applied by "Apply", defaulting to 60. */
  function RrfKSetting(field: string): (v: int)
    ensures v != 0
    ensures ParseInt(field).Some? && ParseInt(field).value != 0 ==> v == ParseInt(field).value
    ensures ParseInt(field).None? || ParseInt(field).value == 0 ==> v == 60
  {
    SettingOr(field, Fusion.DefaultRrfK)
  }

  /** A positive number typed into the `topK` field is taken as is; `0` and
      an empty field fall back to 5. */
  lemma TopKOfNumbers(n: nat)
    ensures n > 0 ==> TopKSetting(NatToString(n)) == n
    ensures n == 0 ==> TopKSetting(NatToString(n)) == 5
    ensures TopKSetting("") == 5
  {
    ParseIntOfNatToString(n);
    assert DigitRun(SignFree(TrimStart(""))) == 0;
  }

  /** A positive number typed into the `rrfK` field is taken as is; `0` and
      an empty field fall back to 60. */
  lemma RrfKOfNumbers(n: nat)
    ensures n > 0 ==> RrfKSetting(NatToString(n)) == n
    ensures n == 0 ==> RrfKSetting(NatToString(n)) == 60
    ensures RrfKSetting("") == 60
  {
    ParseIntOfNatToString(n);
    assert DigitRun(SignFree(TrimStart(""))) == 0;
  }

  // ---------- retrieval dispatch ----------

  /** What pressing "Retrieve" leads to: refused before any search, failed
      with a message, or a list of hits. */
  datatype Outcome = Refused(status: string) | Failed(message: string) | Retrieved(hits: seq<Hit>)

  /** Hybrid mode fuses two pools and divides by `rrfK + r` at every rank
      `r` of each. The keyword pool holds `max(topK, 10)` hits or every chunk,
      whichever is fewer, and so does the vector pool when the vector search
      succeeds. No such denominator may be zero. */
  predicate PoolRanksNonZero(q: string, topK: int, mode: string, rrfK: int,
                             tfidf: KeywordIndex.Index, vector: Option<VectorIndex.State>,
                             embed: VectorIndex.Embedder)
  {
    var pool := Max(topK, HybridPoolSize);
    mode != "keyword" && mode != "vector" && vector.Some? && vector.value.ready
      && embed(q).Ok? && |vector.value.embeddings| >= |vector.value.chunks|
    ==> Fusion.RanksNonZero(rrfK, SliceEnd(|tfidf.chunks|, pool))
        && Fusion.RanksNonZero(rrfK, SliceEnd(|vector.value.chunks|, pool))
  }

  /** The `btnRetrieve` handler. The question is trimmed; `mode` is the
      retrieval type; `tfidf` and `vector` are the built indexes, if any. An
      empty question or a missing keyword index refuses before any search. */
  function Retrieve(question: string, topKField: string, mode: string, rrfK: int,
                    tfidf: Option<KeywordIndex.Index>, vector: Option<VectorIndex.State>,
                    embed: VectorIndex.Embedder, sqrt: Sqrt): (r: Outcome)
    requires tfidf.Some? ==> KeywordIndex.Valid(tfidf.value)
    requires vector.Some? ==> VectorIndex.Aligned(vector.value)
    requires Trim(question) != "" && tfidf.Some? ==>
      PoolRanksNonZero(Trim(question), TopKSetting(topKField), mode, rrfK, tfidf.value, vector, embed)
    ensures r.Refused? <==> Trim(question) == "" || tfidf.None?
    ensures Trim(question) == "" ==> r == Refused(EnterQuestion)
    ensures Trim(question) != "" && tfidf.None? ==> r == Refused(BuildIndexFirst)
    ensures !r.Refused? ==>
      r == Dispatch(Trim(question), TopKSetting(topKField), mode, rrfK, tfidf.value, vector, embed, sqrt)
  {
    var q := Trim(question);
    if q == "" then Refused(EnterQuestion)
    else if tfidf.None? then Refused(BuildIndexFirst)
    else Dispatch(q, TopKSetting(topKField), mode, rrfK, tfidf.value, vector, embed, sqrt)
  }

  /** The search itself: `"keyword"` searches the keyword index, `"vector"`
      the vector index, and any other mode fuses both, each asked for
      `max(topK, 10)` hits. Without a vector index only keyword mode runs. */
  function Dispatch(q: string, topK: int, mode: string, rrfK: int,
                    tfidf: KeywordIndex.Index, vector: Option<VectorIndex.State>,
                    embed: VectorIndex.Embedder, sqrt: Sqrt): (r: Outcome)
    requires KeywordIndex.Valid(tfidf)
    requires vector.Some? ==> VectorIndex.Aligned(vector.value)
    requires PoolRanksNonZero(q, topK, mode, rrfK, tfidf, vector, embed)
    ensures !r.Refused?
    ensures mode == "keyword" ==> r == Retrieved(KeywordIndex.Search(tfidf, q, topK, sqrt))
    ensures mode != "keyword" && vector.None? ==> r == Failed(NoVectorIndex)
    ensures r.Retrieved? ==> forall a, b :: 0 <= a < b < |r.hits| ==> r.hits[a].score >= r.hits[b].score
    ensures r.Retrieved? ==> forall k :: 0 <= k < |r.hits| ==>
      r.hits[k].via == (if mode == "keyword" then Keyword else if mode == "vector" then Vector else Hybrid)
    ensures mode == "vector" && vector.Some? ==>
      r == match VectorIndex.Search(vector.value, q, topK, embed)
           case Ok(hits) => Retrieved(hits)
           case Err(m) => Failed(m)
    ensures mode != "keyword" && mode != "vector" && vector.Some? ==>
      r == match VectorIndex.Search(vector.value, q, Max(topK, HybridPoolSize), embed)
           case Ok(vec) => Retrieved(Fusion.Fuse(KeywordIndex.Search(tfidf, q, Max(topK, HybridPoolSize), sqrt),
                                                 vec, topK, rrfK))
           case Err(m) => Failed(m)
  {
    if mode == "keyword" then Retrieved(KeywordIndex.Search(tfidf, q, topK, sqrt))
    else if vector.None? then Failed(NoVectorIndex)
    else if mode == "vector" then
      match VectorIndex.Search(vector.value, q, topK, embed)
      case Err(m) => Failed(m)
      case Ok(hits) => Retrieved(hits)
    else
      var pool := Max(topK, HybridPoolSize);
      var kw := KeywordIndex.Search(tfidf, q, pool, sqrt);
      match VectorIndex.Search(vector.value, q, pool, embed)
      case Err(m) => Failed(m)
      case Ok(vec) => Retrieved(Fusion.Fuse(kw, vec, topK, rrfK))
  }

  // ---------- citation check ----------

  const TagOpen: string := "[chunk:"

  /** `s[..n]` matches `\[chunk:(\d+)\]`: the opening text, one or more
      digits, and the closing bracket. */
  predicate TagAt(s: string, n: nat)
  {
    && |TagOpen| + 1 < n <= |s|
    && s[..|TagOpen|] == TagOpen
    && s[n - 1] == ']'
    && forall k :: |TagOpen| <= k < n - 1 ==> IsDigit(s[k])
  }

  /** The length of a match of `\[chunk:(\d+)\]` at the start of `s`, if
      one starts there. The digit run is taken whole: a digit cannot stand
      for the closing bracket, so backtracking never shortens it, and at
      most one length matches. */
  function MatchLength(s: string): (n: Option<nat>)
    ensures forall m: nat :: TagAt(s, m) <==> n == Some(m)
    ensures n.Some? ==> |TagOpen| + 1 < n.value <= |s|
  {
    var q := |TagOpen|;
    if q <= |s| && s[..q] == TagOpen then
      var d := DigitRun(s[q..]);
      assert forall m: nat :: TagAt(s, m) ==> m == q + d + 1 by {
        forall m: nat | TagAt(s, m) ensures m == q + d + 1 {
          assert forall k :: q <= k < m - 1 ==> s[q..][k - q] == s[k];
        }
      }
      if d > 0 && q + d < |s| && s[q + d] == ']' then
        assert forall k :: q <= k < q + d ==> s[k] == s[q..][k - q];
        assert TagAt(s, q + d + 1);
        Some(q + d + 1)
      else None
    else None
  }

  /** The id written in a match of length `n` at the start of `s`: a tag
      written for `id` reads back as `id`. */
  function MatchedId(s: string, n: nat): (id: nat)
    requires MatchLength(s) == Some(n)
    ensures forall k: nat :: s[..n] == Tag(k) ==> id == k
  {
    var q := |TagOpen|;
    assert DigitRun(s[q..]) == n - 1 - q;
    var digits := s[q..n - 1];
    assert forall k: nat :: s[..n] == Tag(k) ==> DigitsValue(digits) == k by {
      forall k: nat | s[..n] == Tag(k) ensures DigitsValue(digits) == k {
        assert Tag(k) == TagOpen + NatToString(k) + "]";
        assert digits == s[..n][q..n - 1];
        assert s[..n][q..n - 1] == NatToString(k);
        NatToStringRoundTrip(k);
      }
    }
    DigitsValue(digits)
  }

  /** `answer.matchAll(/\[chunk:(\d+)\]/g)` with each match read by
      `parseInt`: matches do not overlap, and scanning resumes right after
      each one. */
  function Citations(s: string): (ids: seq<nat>)
    ensures (|TagOpen| + 2) * |ids| <= |s|
    ensures (forall k :: 0 <= k < |s| ==> s[k] != '[') ==> ids == []
  {
    if |s| == 0 then []
    else
      match MatchLength(s)
      case None => Citations(s[1..])
      case Some(n) =>
        assert TagAt(s, n) && s[0] == s[..|TagOpen|][0];
        [MatchedId(s, n)] + Citations(s[n..])
  }

  /** The tag `[chunk:ID]` as the model is asked to write it. */
  function Tag(id: nat): string
  {
    TagOpen + NatToString(id) + "]"
  }

  function Tags(ids: seq<nat>): string
  {
    if |ids| == 0 then "" else Tag(ids[0]) + Tags(ids[1..])
  }

  lemma {:induction false} DigitRunThenStop(d: string, t: string)
    requires forall k :: 0 <= k < |d| ==> IsDigit(d[k])
    requires |t| > 0 && !IsDigit(t[0])
    ensures DigitRun(d + t) == |d|
  {
    if |d| > 0 {
      assert (d + t)[1..] == d[1..] + t;
      DigitRunThenStop(d[1..], t);
    }
  }

  /** The pieces of a tag followed by more text. */
  lemma TagParts(id: nat, rest: string)
    ensures (Tag(id) + rest)[..|TagOpen|] == TagOpen
    ensures (Tag(id) + rest)[|TagOpen|..] == NatToString(id) + ("]" + rest)
  {
    assert Tag(id) + rest == TagOpen + (NatToString(id) + ("]" + rest));
  }

  /** A tag at the start of the text is one match. */
  lemma TagMatchLength(id: nat, rest: string)
    ensures MatchLength(Tag(id) + rest) == Some(|Tag(id)|)
  {
    TagParts(id, rest);
    DigitRunThenStop(NatToString(id), "]" + rest);
  }

  /** ... and the match reads back as its id. */
  lemma TagMatch(id: nat, rest: string)
    ensures MatchLength(Tag(id) + rest) == Some(|Tag(id)|)
    ensures MatchedId(Tag(id) + rest, |Tag(id)|) == id
  {
    TagMatchLength(id, rest);
    TagParts(id, rest);
    var s := Tag(id) + rest;
    assert s[|TagOpen|..|Tag(id)| - 1] == NatToString(id);
    NatToStringRoundTrip(id);
  }

  /** Round trip: the citations read back from a run of tags are the ids
      written, repeats and order included. */
  lemma {:induction false} CitationsOfTags(ids: seq<nat>)
    ensures Citations(Tags(ids)) == ids
  {
    if |ids| > 0 {
      var t := Tag(ids[0]);
      var rest := Tags(ids[1..]);
      TagMatch(ids[0], rest);
      assert (t + rest)[|t|..] == rest;
      CitationsOfTags(ids[1..]);
    }
  }

  /** `x` occurs in `s` somewhere before an occurrence of `y`. */
  predicate OccursBefore(s: seq<nat>, x: nat, y: nat)
  {
    exists i, j :: 0 <= i < j < |s| && s[i] == x && s[j] == y
  }

  /** Any two ids of `r` also occur in `s`, and in the same order. */
  predicate InOrderOf(r: seq<nat>, s: seq<nat>)
  {
    forall a, b :: 0 <= a < b < |r| ==> OccursBefore(s, r[a], r[b])
  }

  /** Putting an id in front of `t` keeps `r` in its order. */
  lemma InOrderSkip(r: seq<nat>, x: nat, t: seq<nat>)
    requires InOrderOf(r, t)
    ensures InOrderOf(r, [x] + t)
  {
    forall a, b | 0 <= a < b < |r|
      ensures OccursBefore([x] + t, r[a], r[b])
    {
      var i, j :| 0 <= i < j < |t| && t[i] == r[a] && t[j] == r[b];
      assert ([x] + t)[i + 1] == t[i] && ([x] + t)[j + 1] == t[j];
    }
  }

  /** An id put in front of both keeps the order, when `r` is drawn from `t`. */
  lemma InOrderCons(x: nat, r: seq<nat>, t: seq<nat>)
    requires InOrderOf(r, t)
    requires forall k :: 0 <= k < |r| ==> r[k] in t
    ensures InOrderOf([x] + r, [x] + t)
  {
    InOrderSkip(r, x, t);
    var u := [x] + r;
    var v := [x] + t;
    forall a, b | 0 <= a < b < |u|
      ensures OccursBefore(v, u[a], u[b])
    {
      if a == 0 {
        var j :| 0 <= j < |t| && t[j] == r[b - 1];
        assert v[0] == u[0] && v[j + 1] == u[b];
      } else {
        assert u[a] == r[a - 1] && u[b] == r[b - 1];
      }
    }
  }

  /** The ids of `s` that are in `known` when `keep` holds, or not in it
      otherwise, in their order. */
  function Select(s: seq<nat>, known: set<nat>, keep: bool): (r: seq<nat>)
    ensures |r| <= |s|
    ensures forall k :: 0 <= k < |r| ==> r[k] in s && (r[k] in known) == keep
    ensures forall k :: 0 <= k < |s| && (s[k] in known) == keep ==> s[k] in r
    ensures Distinct(s) ==> Distinct(r)
    ensures InOrderOf(r, s)
  {
    if |s| == 0 then []
    else
      var rest := Select(s[1..], known, keep);
      assert s == [s[0]] + s[1..];
      if (s[0] in known) == keep then
        assert Distinct(s) ==> s[0] !in s[1..];
        InOrderCons(s[0], rest, s[1..]);
        [s[0]] + rest
      else
        InOrderSkip(rest, s[0], s[1..]);
        rest
  }

  datatype CitationReport = CitationReport(cited: seq<nat>, valid: seq<nat>, invalid: seq<nat>)

  /** The `btnEvalRefresh` check: with nothing retrieved there is no report;
      otherwise the cited ids, de-duplicated in first-occurrence order, are
      split into those among the retrieved chunks and the rest. */
  function CheckCitations(answer: string, retrieved: seq<Hit>): (r: Option<CitationReport>)
    ensures r.None? <==> retrieved == []
    ensures r.Some? ==>
      && r.value.cited == Dedup(Citations(answer))
      && Distinct(r.value.valid) && Distinct(r.value.invalid)
      && |r.value.valid| + |r.value.invalid| == |r.value.cited|
      && (forall k :: 0 <= k < |r.value.valid| ==> r.value.valid[k] in Ids(retrieved))
      && (forall k :: 0 <= k < |r.value.invalid| ==> r.value.invalid[k] !in Ids(retrieved))
      && (forall k :: 0 <= k < |r.value.cited| ==>
            r.value.cited[k] in r.value.valid || r.value.cited[k] in r.value.invalid)
      && InOrderOf(r.value.valid, r.value.cited) && InOrderOf(r.value.invalid, r.value.cited)
  {
    if |retrieved| == 0 then None
    else
      var cited := Dedup(Citations(answer));
      var existing := set k | 0 <= k < |retrieved| :: retrieved[k].chunk.id;
      assert forall x :: x in existing <==> x in Ids(retrieved);
      var valid := Select(cited, existing, true);
      var invalid := Select(cited, existing, false);
      SelectSplits(cited, existing);
      Some(CitationReport(cited, valid, invalid))
  }

  lemma {:induction false} SelectSplits(s: seq<nat>, known: set<nat>)
    ensures |Select(s, known, true)| + |Select(s, known, false)| == |s|
  {
    if |s| > 0 {
      SelectSplits(s[1..], known);
    }
  }
}
